=== FILE: README.md ===
# Huffman compressor (`.MZIP`) — a Dafny model

This project models the compressor. It reads the bytes of a file and
counts each of the 256 byte values (`makeFrequencyArray`). It seeds a
priority queue with one leaf per byte value that occurs (`makeQueue`). It
builds the Huffman tree by repeatedly merging the two lowest-priority
entries (`buildTree`, `merge`). It writes the tree on one line in
parenthesised form (`printTree`). It replaces every input byte by its
root-to-leaf path of '0'/'1' characters (`encode`, `printEncoded`). It pads
that text to a whole number of bytes (`extraBits`, `makeWholeByte`). Last,
it writes the `.MZIP` container (`outToFile`): the file name, the
upper-cased extension, the tree line, the padding count and the padded text
packed eight bits to a byte.

The queue is a sorted singly linked list of `Node` cells (`PriorityQ`). It
is modelled as a Dafny class over `Node` objects, with a ghost list of the
cells and a ghost sequence of (item, priority) entries. The pure function
`Enqueued` pins down where `enqueue` puts a new entry, ties included: an
entry whose priority is at most the head's goes in front, and any other
entry goes after every entry whose priority is at most its own. The tree
shape depends on this rule.

The Huffman tree is the value datatype `Tree` (`Empty`, `Leaf`,
`Internal`), each node carrying its priority. `Empty` is the childless,
itemless `new BinaryTreeNode<Byte>()` that `buildTree` returns for an empty
queue. The `BinaryTreeNode` class itself is modelled separately, with its
constructors, setters and `isLeaf`. Byte values are 0..255. The source
stores them as signed `(byte)i` and compares them with `(byte)c`. That is
the same one-to-one relabelling on both sides, so lookups agree.

Modules, one per file:

- `Text`: bytes, bit strings and `Integer.toString`.
- `LinkedNode`: `Node`.
- `PriorityQueue`: `PriorityQ` and its specification.
- `BinaryTree`: `BinaryTreeNode`.
- `HuffmanTree`: `Tree`, `merge` and `encode`.
- `Frequency`: `makeFrequencyArray`.
- `TreeBuilding`: `makeQueue` and `buildTree`.
- `TreeText`: `printTree`.
- `Encoding`: `printEncoded`.
- `Packing`: `extraBits`, `makeWholeByte` and bit values.
- `Container`: `outToFile`.
- `Compressor`: the steps of `main`, in order.

Main results:

- `printTree` does the same queue operations on decimal labels that
  `makeQueue` and `buildTree` do on trees. Its text is therefore exactly the
  printed form of the built tree (`TreeText.PrintTreeShowsBuiltTree`).
- The codes are sound, complete and prefix-free. The encoded length is the
  sum of count × code length.
- Packing followed by unpacking gives the padded text back.
- The whole run fails exactly on inputs made of one repeated byte value
  (`Compressor.CompressFailsIff`). With one symbol the root is a leaf and
  `encode` returns null for every byte. `printEncoded` then appends the text
  "null" for each byte, and `Integer.parseInt` rejects the first group.

## Model

| member | source | states |
|---|---|---|
| Text.NatToString | Compression.java:245 | `Integer.toString` of a non-negative number is a non-empty run of decimal digits, with no leading zero (a text starting with '0' is exactly "0") |
| Text.NatToStringRoundTrip | Compression.java:245 | the decimal text reads back as the number it was made from |
| Text.IntToString | Compression.java:325 | the padding count as written after dropping the leading space of `" " + extraBits`: a non-negative number gives decimal digits that read back as the number, a negative one gives '-' followed by the digits of its magnitude; in both cases there is no leading zero |
| LinkedNode.Node.constructor | Node.java:28-32 | `Node(item)` stores the item, with both links null and the default priority 0 |
| LinkedNode.Node.WithPriority | Node.java:40-45 | `Node(item, priority)` stores both values, with `next` and `prev` null |
| LinkedNode.Node.WithNext | Node.java:53-56 | `Node(item, next)` stores the item and the successor, with priority left at 0 |
| LinkedNode.Node.SetNext | Node.java:81-83 | `getNext` returns the new successor afterwards, and no other field changes |
| LinkedNode.Node.SetPrev | Node.java:90-92 | `getPrev` returns the new predecessor afterwards, and no other field changes |
| LinkedNode.Node.SetPriority | Node.java:117-119 | `getPriority` returns the new priority afterwards, and no other field changes |
| PriorityQueue.Slot | PriorityQ.java:33-41 | the insertion index: 0 exactly when the queue is empty or the priority is at most the head's; otherwise just past every entry, head excluded, whose priority is at most the new one and before the first greater one |
| PriorityQueue.EnqueuedInserts | PriorityQ.java:24-44 | enqueue adds exactly the new entry at the slot and keeps the other entries in their order |
| PriorityQueue.EnqueuedSorted | PriorityQ.java:24-44 | enqueue keeps the queue sorted by non-decreasing priority |
| PriorityQueue.EnqueueTieRule | PriorityQ.java:28-43 | an entry whose priority is at most the head's goes in front (ties at the front are last-in-first-out); any other entry goes after exactly the entries whose priority is at most its own (ties elsewhere are first-in-first-out) |
| PriorityQueue.HeadIsMinimum | PriorityQ.java:51-55 | the head that dequeue returns has the least priority, and the rest stays sorted |
| PriorityQueue.EnqueueAllSortedPermutation | PriorityQ.java:24-44 | a series of enqueues leaves a sorted permutation of the old entries plus the new ones |
| PriorityQueue.RunByPriorities | PriorityQ.java:39-41 | the insertion walk depends only on the priorities in the queue, not on the items |
| PriorityQueue.SlotByPriorities | PriorityQ.java:33-41 | two queues with the same priorities put a new entry at the same index, whatever their items are |
| PriorityQueue.ConsHolds | PriorityQ.java:34-35 | a fresh cell linked to the old head gives a distinct, null-terminated chain holding its entry in front of the old entries |
| PriorityQueue.SplicedHolds | PriorityQ.java:42-43 | after the new cell takes cell k's old successor and cell k links to it, the chain is distinct and null-terminated, holds the new entry right after entry k and the old ones around it, and is made of the old cells and the new one only |
| PriorityQueue.PriorityQ.constructor | PriorityQ.java:14-16 | a new queue is empty |
| PriorityQueue.PriorityQ.Enqueue | PriorityQ.java:24-44 | the linked list afterwards holds `Enqueued(old contents, (item, priority))`, in new cells only |
| PriorityQueue.PriorityQ.LinkFront | PriorityQ.java:28-36 | a new cell linked in as the head puts its entry in front of the old contents |
| PriorityQueue.PriorityQ.LinkAfter | PriorityQ.java:39-43 | relinking after the cell the walk stopped at puts the new entry right after it, and the rest is kept |
| PriorityQueue.PriorityQ.FindPredecessor | PriorityQ.java:39-41 | when the new priority exceeds the head's, the walk stops at the cell just in front of the slot `Slot` gives for it |
| PriorityQueue.PriorityQ.Dequeue | PriorityQ.java:51-59 | a non-empty queue hands back its head cell (item and priority of the first entry) and keeps the rest in order; an empty queue gives null and is unchanged |
| PriorityQueue.PriorityQ.Size | PriorityQ.java:66-75 | the count of linked cells is the number of entries |
| PriorityQueue.PriorityQ.IsEmpty | PriorityQ.java:82-87 | true exactly when the queue holds no entry |
| BinaryTree.BinaryTreeNode.constructor | BinaryTreeNode.java:18-22 | no item, no children, priority 0, and `isLeaf` holds |
| BinaryTree.BinaryTreeNode.WithItem | BinaryTreeNode.java:29-33 | the item with no children and priority 0, a leaf |
| BinaryTree.BinaryTreeNode.WithChildren | BinaryTreeNode.java:42-46 | the item and both children, priority 0; a leaf exactly when both children are null |
| BinaryTree.BinaryTreeNode.WithPriority | BinaryTreeNode.java:54-59 | a leaf holding the item and the priority |
| BinaryTree.BinaryTreeNode.SetLeft | BinaryTreeNode.java:83-85 | `getLeft` returns the new child, and no other field changes |
| BinaryTree.BinaryTreeNode.SetRight | BinaryTreeNode.java:91-93 | `getRight` returns the new child, and no other field changes |
| BinaryTree.BinaryTreeNode.SetItem | BinaryTreeNode.java:109-111 | `getItem` returns the new item, and no other field changes |
| BinaryTree.BinaryTreeNode.SetPriority | BinaryTreeNode.java:118-120 | `getPriority` returns the new priority, and no other field changes |
| BinaryTree.BinaryTreeNode.IsLeaf | BinaryTreeNode.java:136-143 | true exactly when both children are null |
| HuffmanTree.SetPriority | Compression.java:151 | the node keeps its kind, children and symbol, and takes the new priority |
| HuffmanTree.Merge | Compression.java:165-168 | a new node with no item whose left and right children are the two arguments, with priority 0, holding exactly the leaves of both, byte values and priorities alike |
| HuffmanTree.Encode | Compression.java:209-232 | null when the root is a leaf or has no children; a code it returns is a non-empty '0'/'1' string and only ever for a byte some leaf holds |
| HuffmanTree.FullTreeCounts | Compression.java:142-153 | a tree made only of leaves and two-child nodes has one internal node fewer than leaves |
| HuffmanTree.EncodeSound | Compression.java:209-232 | a code `encode` returns is a non-empty bit string, and walking it from the root ('0' left, '1' right) ends at the leaf holding the byte |
| HuffmanTree.EncodeComplete | Compression.java:213-229 | on an internal root, every byte some leaf holds gets a code |
| HuffmanTree.EncodeDefined | Compression.java:209-232 | `encode` gives a code exactly when the root is internal and some leaf holds the byte; otherwise null, immediately so for a leaf or childless root |
| HuffmanTree.PrefixFree | Compression.java:209-232 | no byte's code is a prefix of a different byte's code |
| Frequency.HistogramStep | Compression.java:96-103 | reading one more byte bumps exactly that byte's counter |
| Frequency.HistogramTotal | Compression.java:91-103 | every counter is non-negative and the counters sum to the input length |
| Frequency.MakeFrequencyArray | Compression.java:80-113 | a 256-entry array whose entry v is the number of occurrences of v in the input |
| TreeBuilding.EnqueuedTotals | Compression.java:152 | enqueuing a tree adds the byte values of its leaves to the queue's multiset of byte values and its priority to the queue's total, and keeps the queue consistent (the leaves with their priorities are `EnqueuedLeaves`) |
| TreeBuilding.EnqueueAllTotals | Compression.java:124-129 | a series of enqueues adds up the leaves and priorities of all enqueued trees |
| TreeBuilding.SeedsAreLeaves | Compression.java:124-129 | every seeded entry is a leaf for a byte value with a non-zero count, that count being both its priority and its weight |
| TreeBuilding.SeedsAscending | Compression.java:124-129 | seeds are enqueued in strictly ascending byte-value order |
| TreeBuilding.SeedsSymbols | Compression.java:124-129 | exactly one leaf per byte value with a non-zero count; zero counts are skipped |
| TreeBuilding.SeedsLeaves | Compression.java:124-129 | the leaf queued for byte value v weighs v's count, once for every v with a non-zero count, and there is no other leaf |
| TreeBuilding.EnqueuedLeaves | Compression.java:152 | enqueuing an entry adds exactly its tree's leaves to the queue's leaves, wherever it is inserted |
| TreeBuilding.EnqueueAllLeaves | Compression.java:124-129 | enqueuing the seeds one after another adds exactly their leaves |
| TreeBuilding.SeedsTotal | Compression.java:124-129 | the seeded priorities add up to the sum of the counters |
| TreeBuilding.SeedsConsistent | Compression.java:126 | each seeded leaf's queue priority is its own priority |
| TreeBuilding.SeededQueueShape | Compression.java:121-131 | the queue `makeQueue` returns is sorted, consistent, and holds one entry per seed |
| TreeBuilding.SeededQueueTotals | Compression.java:121-131 | the queue holds exactly one leaf per occurring byte value, its priorities summing to the counters' total |
| TreeBuilding.Joined | Compression.java:150-151 | the merged node is internal, with the two dequeued trees as left and right child and the sum of their priorities as its own |
| TreeBuilding.RoundTotals | Compression.java:145-152 | one merging round keeps the queue consistent and keeps the multiset of byte values at its leaves and its total priority, with one entry fewer |
| TreeBuilding.Build | Compression.java:139-156 | the tree `buildTree` returns for given queue contents; an empty queue gives the bare node `new BinaryTreeNode<Byte>()` (the other cases are stated by `BuildRoot` and `BuildFacts`) |
| TreeBuilding.BuildRoot | Compression.java:142-153 | a single queued entry comes back as it is; two or more entries end in a merged, internal root |
| TreeBuilding.BuildRound | Compression.java:145-152 | dequeuing two entries, merging them and enqueuing the merged node with the summed priority leaves the tree still to be built unchanged |
| TreeBuilding.EnqueueJoined | Compression.java:150-152 | the node enqueued is internal with the two dequeued trees as children and the sum of their priorities, and it goes in at its `Enqueued` slot |
| TreeBuilding.BuildFacts | Compression.java:139-156 | from a consistent non-empty queue: exactly the queued leaves with their priorities (`Leaves` equals `QueueLeaves`), no bare node, every internal priority the sum of its children's, root priority the total, one internal node fewer than leaves; a single entry is returned unchanged, two or more give an internal root |
| TreeBuilding.BuildLeaves | Compression.java:139-156 | the built tree holds exactly the leaves of the queue, each with the priority it was queued with |
| TreeBuilding.MakeQueue | Compression.java:121-131 | the new queue holds exactly the seeds enqueued in ascending byte order |
| TreeBuilding.SeedCounter | Compression.java:125-128 | one round of the seeding loop: afterwards the queue holds the seeds of every byte value up to and including this one |
| TreeBuilding.BuildTree | Compression.java:139-156 | returns the tree `Build` gives for the queue's contents, and leaves the queue empty |
| TreeText.Pair | Compression.java:257 | "(a b)": the two texts in order between parentheses, separated by one space |
| TreeText.LabelledPriorities | Compression.java:243-247 | the label queue has the same priorities as the tree queue, each label being the printed form of its tree |
| TreeText.LabelledEnqueued | Compression.java:257-258 | enqueuing a label and enqueuing the tree it prints keep the two queues in step |
| TreeText.LabelledEnqueueAll | Compression.java:243-247 | a series of enqueues keeps the label queue the printed form of the tree queue |
| TreeText.LabelSeedsAreLabelled | Compression.java:243-247 | the decimal labels `printTree` enqueues are the printed seeds `makeQueue` enqueues |
| TreeText.PrintedMirrorsBuild | Compression.java:248-260 | replaying `buildTree` on the printed queue gives the printed form of the tree built from the tree queue |
| TreeText.PrintTreeShowsBuiltTree | Compression.java:240-261 | `printTree` returns the parenthesised form of the tree `makeQueue` + `buildTree` build: the bare decimal value for one symbol, "" for an all-zero table |
| TreeText.PrintTree | Compression.java:240-261 | the returned text is the merge of the label queue seeded from the counters |
| TreeText.MergeTexts | Compression.java:248-260 | the merging loop returns what `Printed` gives for the queue it starts from |
| TreeText.MergeRound | Compression.java:255-258 | one merging round dequeues the second label, enqueues "(first second)" with the summed priority at its slot, and leaves the text still to be printed unchanged |
| Encoding.CodeTextCases | Compression.java:191 | a byte with a code appends a non-empty bit string; one without appends "null" |
| Encoding.EncodedSnoc | Compression.java:190-192 | reading one more byte appends that byte's code to the text |
| Encoding.EncodedConcat | Compression.java:190-192 | encoding two pieces one after the other gives the two encoded texts concatenated |
| Encoding.EncodedCons | Compression.java:190-192 | the encoded text begins with the first byte's code, followed by the encoding of the rest |
| Encoding.EncodedIsBits | Compression.java:190-192 | when every byte has a code, the encoded text is all '0'/'1' |
| Encoding.EncodedWithoutCodes | Compression.java:191 | on a leaf or childless root the text is "null" once per byte, four characters each |
| Encoding.EncodedLength | Compression.java:190-198 | the encoded length is the sum over byte values of count × code length |
| Encoding.PrintEncoded | Compression.java:177-200 | the returned text is the codes of the input bytes, in input order |
| Packing.ExtraBits | Compression.java:269-275 | the padding is in 0..7, brings the length to a multiple of 8, and is 0 when already aligned |
| Packing.Zeros | Compression.java:286 | k '0' characters |
| Packing.MakeWholeByte | Compression.java:284-289 | the text followed by exactly `extraBits` '0' characters |
| Packing.PaddedIsWhole | Compression.java:269-289 | padding by `extraBits` gives whole bytes and keeps a bit string a bit string |
| Packing.BitsValueBound | Compression.java:336 | n bits denote a number below 2^n, so an 8-character group fits a byte |
| Packing.ByteBits | Compression.java:336 | the n-bit rendering of a number is an n-character bit string |
| Packing.BitsRoundTrip | Compression.java:336 | writing a bit string's value back in as many bits gives the string again |
| Container.Bytes | Compression.java:306-319 | one written byte per character, its low eight bits |
| Container.LowByte | Compression.java:307 | `stream.write` keeps the low eight bits: the byte written is congruent to the argument modulo 256, and a value in 0..255 is written unchanged |
| Container.ParseBinary | Compression.java:336 | `Integer.parseInt(s, 2)` succeeds exactly on an optional sign followed by one or more binary digits; an unsigned bit string gives its binary value, a '+' sign followed by bits gives their value and a '-' sign followed by bits gives its negation |
| Container.Payload | Compression.java:332-338 | one byte per whole group of eight characters, a shorter tail dropped (no bytes for fewer than eight characters); every group of a bit string parses |
| Container.Layout | Compression.java:300-345 | with null encoded text only the name and the upper-cased extension are written; the write fails exactly when some group does not parse; otherwise the bytes start with that header and CRLF and number header + tree + padding-count digits + three CRLFs + one per eight encoded characters |
| Container.Upper | Compression.java:309 | same length, each letter a..z upper-cased and every other character kept |
| Container.Pack | Compression.java:333-338 | one byte per whole group of eight bits |
| Container.PackRoundTrip | Compression.java:333-338 | unpacking the packed bytes, eight bits each with the most significant first, gives the aligned bit string back |
| Container.PayloadOfBits | Compression.java:333-338 | on a bit string every group parses, and the data written is the packed bytes |
| Container.PayloadRejects | Compression.java:336 | a first group starting with neither a sign nor an ASCII binary digit makes `parseInt` throw |
| Container.LayoutOfBits | Compression.java:306-338 | for padded bits: name, upper-cased extension, CRLF, tree, CRLF, padding count, CRLF, then |bits|/8 bytes that unpack to the bits |
| Container.OutToFile | Compression.java:300-345 | the bytes written are the container `Layout` describes, or a failure where `parseInt` throws |
| Container.WriteChars | Compression.java:306-327 | a character-writing loop appends one byte per character from its start index on |
| Container.PayloadStep | Compression.java:336-337 | writing the byte of the first group and dropping its eight characters leaves the final packed output unchanged |
| Container.WritePacked | Compression.java:332-338 | the packing loop appends the packed groups, or fails on the first group that does not parse |
| Compressor.HuffTreeFacts | Compression.java:121-156 | empty input gives the bare node; otherwise no bare node, priorities add up, root priority = input length, one leaf per occurring byte value |
| Compressor.HuffTreeLeaves | Compression.java:121-156 | the tree has one leaf per byte value occurring in the input, weighing its number of occurrences, and no other leaf |
| Compressor.RootShape | Compression.java:142-153 | a non-empty input gets a leaf root exactly when it holds one byte value, and an internal root otherwise |
| Compressor.EmptyInputTexts | Compression.java:141-155 | empty input prints "" as tree and encodes to "" (not null) |
| Compressor.CompressEmpty | Compression.java:313-331 | empty input writes the header, an empty tree line and the padding count 0, with no data |
| Compressor.Compress | Compression.java:42-63 | whenever the run succeeds, the file starts with the name, the upper-cased extension and CRLF |
| Compressor.PaddedAtLeastEight | Compression.java:269-289 | padding a non-empty text gives at least one whole group of eight characters |
| Compressor.NullPaddedRejected | Compression.java:336 | an encoded text starting with "null" is rejected by `parseInt` once padded |
| Compressor.CompressSingle | Compression.java:336 | a single repeated byte value makes the run fail |
| Compressor.CompressDistinct | Compression.java:42-63 | with two or more byte values: the encoded text is bits, the file is header, printed tree, padding count and the packed padded text, and that unpacks back |
| Compressor.CompressFailsIff | Compression.java:42-63 | the run fails exactly on inputs of one repeated byte value |
| Compressor.CompressFile | Compression.java:42-63 | the steps of `main` in order produce `Compress` of the input |
| Compressor.EncodeFixedDefined | Compression.java:211-212 | with the leaf-root case fixed, a byte has a bit-string code exactly when the tree holds it; internal roots are looked up as before |
| Compressor.EncodedFixedAgrees | Compression.java:190-192 | on an internal root the corrected encoding is the original one |
| Compressor.EncodedFixedIsBits | Compression.java:190-192 | with every byte coded, the corrected encoding is a bit string |
| Compressor.CompressFixedSucceeds | Compression.java:42-63 | with the fix every input compresses, its data unpacks to the padded bits, and inputs the original handled give the same bytes |

## Left out

- `main`'s prompts, console output and `FileNotFoundException` retry loop (Compression.java:19-71) are user interface. `Compressor.CompressFile` takes the name, the extension and the file's bytes as parameters.
- Opening, buffering and closing streams is I/O and is not modelled. Input is a `seq` of bytes. Output is the returned byte sequence, and the `file + ".MZIP"` naming of the output file is not modelled.
- The `in.available()` test in `makeFrequencyArray` is taken to mean "bytes remain", so the loop reads every byte.
- Container.Bytes: writes one byte per Dafny character, that is per Unicode scalar value. The source's `charAt` loops (Compression.java:306-327) write one byte per UTF-16 code unit, so a character outside the Basic Multilingual Plane in the file name, extension or tree text gives two bytes there (the low eight bits of each surrogate) and one here. `Container.Header`, `Container.WriteChars` and `Container.OutToFile` inherit this.
- Container.WriteChars: inherits the one-byte-per-scalar-value writing of `Container.Bytes`.
- Container.OutToFile: inherits the one-byte-per-scalar-value writing of `Container.Bytes` and the ASCII-only digits of `Container.ParseBinary`.
- Container.ParseBinary: accepts only the ASCII digits '0' and '1'. `Integer.parseInt` reads digits through `Character.digit`, which also takes other Unicode decimal digits of value 0 or 1 (a group such as "\u0661" followed by seven '0' characters parses as 128 there). The text `printEncoded` builds only ever holds '0', '1' and "null", so this never changes a run.
- Container.PayloadRejects: inherits the ASCII-only digits of `Container.ParseBinary`; a first group starting with a non-ASCII digit of value 0 or 1 parses in the source.
- Container.Upper: `toUpperCase` is modelled for ASCII only; locale and non-ASCII case mapping are not.
- `Node()` with a null item (Node.java:17-21) is not modelled. A generic item has no null in Dafny, and the core never calls it.
- The getters of `Node` and `BinaryTreeNode` are plain reads with no contract of their own. The setters' contracts use them.
- Java `int` overflow of counts, priorities and the sums in `buildTree` is not modelled. Integers are unbounded.
- Overflow in `Integer.parseInt` is not modelled. It is only ever given 8-character groups, which cannot overflow.
- Container.OutToFile: when `parseInt` throws, the bytes already written stay in the file. The model returns `None` instead of that partial content.
- The `root == null` branch of `printEncoded` and `encode` is not modelled. `buildTree` never returns null, so the branch is unreachable from `main`.
- The null-child dereferences `encode` would hit on a node with only one child cannot arise in a built tree, and are not modelled.
- Optimality of the Huffman code is not stated. The model states what the code does (soundness, completeness, prefix-freedom, length), not that it is minimal.
- Decoding: the source has no decompressor. `Container.Unpack` is a ghost function used only to state the packing round trip.
- The Huffman tree is a value datatype in the pipeline, not linked `BinaryTreeNode` objects. The only change made after construction is `setPriority` on a fresh merged node (`HuffmanTree.SetPriority`, `TreeBuilding.Joined`), so nothing is shared or updated in place.
- `makeQueue`, `buildTree`, `printTree`, `outToFile` and `enqueue` are split into helper methods (`TreeBuilding.SeedCounter`, `TreeBuilding.EnqueueJoined`, `TreeText.MergeTexts`, `TreeText.MergeRound`, `Container.WriteChars`, `Container.WritePacked`, `PriorityQueue.PriorityQ.FindPredecessor`, `PriorityQueue.PriorityQ.LinkFront`, `PriorityQueue.PriorityQ.LinkAfter`). The loops and the operations in them are the same.

## Findings

| source | as written | input that shows it | evidently intended | confidence | as-written member | corrected member |
|---|---|---|---|---|---|---|
| Compression.java:211-212, Compression.java:336 | a root that is itself a leaf gets no code, so every byte appends "null" and `Integer.parseInt` throws on the first group | any non-empty file whose bytes are all equal, e.g. the three bytes "aaa" | the lone byte value gets a one-bit code ("0"), and the file compresses like any other | high; not executed | Compressor.CompressSingle | Compressor.CompressFixedSucceeds |

=== FILE: binary_tree_node.dfy ===
/** A node of a binary tree: an optional item (`None` is Java's null), two
    optional children and an integer priority, all updated in place. */
module BinaryTree {
  import opened Optional

  class BinaryTreeNode<E> {
    var item: Option<E>
    var left: BinaryTreeNode?<E>
    var right: BinaryTreeNode?<E>
    var priority: int

    /** `BinaryTreeNode()`: no item, no children, the default priority 0. */
    constructor ()
      ensures item == None && left == null && right == null && priority == 0
      ensures IsLeaf()
    {
      item := None;
      left := null;
      right := null;
      priority := 0;
    }

    /** `BinaryTreeNode(item)`: no children, the default priority 0. */
    constructor WithItem(item: Option<E>)
      ensures this.item == item && left == null && right == null && priority == 0
      ensures IsLeaf()
    {
      this.item := item;
      left := null;
      right := null;
      priority := 0;
    }

    /** `BinaryTreeNode(item, left, right)`: the priority stays at the
        default 0 until the caller sets it. */
    constructor WithChildren(item: Option<E>, left: BinaryTreeNode?<E>, right: BinaryTreeNode?<E>)
      ensures this.item == item && this.left == left && this.right == right && priority == 0
      ensures IsLeaf() <==> left == null && right == null
    {
      this.item := item;
      this.left := left;
      this.right := right;
      priority := 0;
    }

    /** `BinaryTreeNode(item, priority)`: a leaf holding both values. */
    constructor WithPriority(item: Option<E>, priority: int)
      ensures this.item == item && this.priority == priority
      ensures left == null && right == null && IsLeaf()
    {
      this.item := item;
      left := null;
      right := null;
      this.priority := priority;
    }

    function GetLeft(): BinaryTreeNode?<E>
      reads this
    {
      left
    }

    function GetRight(): BinaryTreeNode?<E>
      reads this
    {
      right
    }

    function GetItem(): Option<E>
      reads this
    {
      item
    }

    function GetPriority(): int
      reads this
    {
      priority
    }

    method SetLeft(left: BinaryTreeNode?<E>)
      modifies this
      ensures GetLeft() == left
      ensures item == old(item) && right == old(right) && priority == old(priority)
    {
      this.left := left;
    }

    method SetRight(right: BinaryTreeNode?<E>)
      modifies this
      ensures GetRight() == right
      ensures item == old(item) && left == old(left) && priority == old(priority)
    {
      this.right := right;
    }

    method SetItem(item: Option<E>)
      modifies this
      ensures GetItem() == item
      ensures left == old(left) && right == old(right) && priority == old(priority)
    {
      this.item := item;
    }

    method SetPriority(priority: int)
      modifies this
      ensures GetPriority() == priority
      ensures item == old(item) && left == old(left) && right == old(right)
    {
      this.priority := priority;
    }

    /** A node is a leaf exactly when it has neither child. */
    predicate IsLeaf()
      reads this
      ensures IsLeaf() <==> left == null && right == null
    {
      left == null && right == null
    }
  }
}

=== FILE: compressor.dfy ===
/** The whole compression run (`main` once the file name is known): count,
    seed, build, print the tree, encode, pad and write the `.MZIP` bytes. */
module Compressor {
  import opened Text
  import opened Optional
  import opened HuffmanTree
  import opened Frequency
  import opened TreeBuilding
  import opened TreeText
  import opened Encoding
  import opened Packing
  import opened Container

  /** The Huffman tree `makeQueue` and `buildTree` build for `input`. */
  function HuffTree(input: seq<Byte>): Tree
  {
    Build(SeededQueue(Histogram(input)))
  }

  /** The input holds one byte value only, at least once. */
  predicate SingleSymbol(input: seq<Byte>)
  {
    input != [] && forall i :: 0 <= i < |input| ==> input[i] == input[0]
  }

  /** The bytes written for `input`, or `None` where the run throws. */
  function Compress(file: string, fileExtension: string, input: seq<Byte>): (r: Option<seq<Byte>>)
    ensures r.Some? ==> Header(file, fileExtension) + CRLF <= r.value
  {
    var h := Histogram(input);
    var encoded := Encoded(HuffTree(input), input);
    var extraBits := ExtraBits(encoded);
    Layout(file, fileExtension, Printed(LabelQueue(h)), Some(encoded + Zeros(extraBits)), extraBits)
  }

  /** An empty input gives the bare node; otherwise the tree has no bare
      node, its internal priorities add up, its root priority is the input
      length and it holds exactly one leaf per byte value that occurs. */
  lemma HuffTreeFacts(input: seq<Byte>)
    ensures input == [] ==> HuffTree(input) == Empty(0)
    ensures input != [] ==>
              && Proper(HuffTree(input)) && WellWeighted(HuffTree(input))
              && HuffTree(input).weight == |input|
              && forall v: Byte :: Symbols(HuffTree(input))[v] == if v in input then 1 else 0
  {
    var h := Histogram(input);
    var q := SeededQueue(h);
    SeededQueueShape(h);
    SeededQueueTotals(h);
    HistogramTotal(input);
    forall v: Byte
      ensures (h[v] != 0) == (v in input)
    {
      assert h[v] == multiset(input)[v];
    }
    if q != [] {
      BuildFacts(q);
      FullTreeCounts(Build(q));
      var v :| v in Symbols(Build(q));
      assert QueueSymbols(q)[v] >= 1;
      assert v in input;
    }
    if input != [] {
      assert QueueSymbols(q)[input[0]] == 1;
      assert q != [];
    }
  }

  /** The tree has exactly one leaf per byte value that occurs in the input,
      weighing the number of its occurrences, and no other leaf. */
  lemma HuffTreeLeaves(input: seq<Byte>)
    ensures forall v: Byte, w: int ::
              Leaves(HuffTree(input))[(v, w)] == if v in input && w == multiset(input)[v] then 1 else 0
  {
    var h := Histogram(input);
    var s := Seeds(h, |h|);
    SeedsLeaves(h, |h|);
    EnqueueAllLeaves([], s);
    BuildLeaves(SeededQueue(h));
    forall v: Byte, w: int
      ensures Leaves(HuffTree(input))[(v, w)] == if v in input && w == multiset(input)[v] then 1 else 0
    {
      assert h[v] == multiset(input)[v];
      assert QueueLeaves(s)[(v, w)] == if v < |h| && h[v] != 0 && w == h[v] then 1 else 0;
    }
  }

  /** Below an internal node of a full tree there is a leaf on each side. */
  lemma SidesHoldLeaves(t: Tree) returns (a: Byte, b: Byte)
    requires Proper(t) && t.Internal?
    ensures a in Symbols(t.left) && b in Symbols(t.right)
  {
    FullTreeCounts(t.left);
    FullTreeCounts(t.right);
    a :| a in Symbols(t.left);
    b :| b in Symbols(t.right);
  }

  /** A non-empty input gets a leaf root exactly when it holds one byte
      value, and an internal root otherwise. */
  lemma RootShape(input: seq<Byte>)
    requires input != []
    ensures HuffTree(input).Leaf? <==> SingleSymbol(input)
    ensures HuffTree(input).Internal? <==> !SingleSymbol(input)
  {
    var t := HuffTree(input);
    HuffTreeFacts(input);
    if t.Internal? {
      var a, b := SidesHoldLeaves(t);
      assert Symbols(t)[a] == 1 && Symbols(t)[b] == 1;
      assert a != b;
      var i :| 0 <= i < |input| && input[i] == a;
      var j :| 0 <= j < |input| && input[j] == b;
      assert input[i] != input[0] || input[j] != input[0];
    } else {
      assert t.Leaf?;
      forall i | 0 <= i < |input|
        ensures input[i] == input[0]
      {
        assert Symbols(t)[input[i]] == 1 && Symbols(t)[input[0]] == 1;
      }
    }
  }

  /** An empty input prints the empty tree text and encodes to the empty
      text. */
  lemma EmptyInputTexts(input: seq<Byte>)
    requires input == []
    ensures Printed(LabelQueue(Histogram(input))) == ""
    ensures Encoded(HuffTree(input), input) == ""
  {
    HuffTreeFacts(input);
    PrintTreeShowsBuiltTree(Histogram(input));
  }

  /** The container for an empty tree text and no data: the header, an
      empty tree line and the padding count 0. */
  lemma EmptyLayout(file: string, fileExtension: string)
    ensures Layout(file, fileExtension, "", Some(""), 0)
            == Some(Header(file, fileExtension) + CRLF + CRLF + Bytes("0") + CRLF)
  {
    LayoutOfBits(file, fileExtension, "", "", 0);
    var head := Header(file, fileExtension);
    var zero := Bytes(IntToString(0));
    assert zero == Bytes("0") by {
      assert IntToString(0) == "0";
    }
    assert Bytes("") == [] && Pack("") == [];
    assert head + CRLF + Bytes("") == head + CRLF;
    assert head + CRLF + CRLF + zero + CRLF + Pack("") == head + CRLF + CRLF + zero + CRLF;
  }

  /** An empty input writes the header, an empty tree line, the padding
      count 0 and no data. */
  lemma CompressEmpty(file: string, fileExtension: string, input: seq<Byte>)
    requires input == []
    ensures Compress(file, fileExtension, input)
            == Some(Header(file, fileExtension) + CRLF + CRLF + Bytes("0") + CRLF)
  {
    EmptyInputTexts(input);
    assert "" + Zeros(ExtraBits("")) == "";
    EmptyLayout(file, fileExtension);
  }

  /** A text that starts with "null" still does once padded, so its first
      group makes `parseInt` throw. */
  lemma NullPaddedRejected(encoded: string)
    requires |encoded| >= 4 && encoded[..4] == "null"
    ensures Payload(encoded + Zeros(ExtraBits(encoded))) == None
  {
    var padded := encoded + Zeros(ExtraBits(encoded));
    PaddedAtLeastEight(encoded);
    assert padded[0] == encoded[..4][0] == 'n';
    PayloadRejects(padded);
  }

  /** Padding a non-empty text gives at least one whole group of eight. */
  lemma PaddedAtLeastEight(encoded: string)
    requires |encoded| >= 1
    ensures |encoded| + ExtraBits(encoded) >= 8
  {
    if |encoded| < 8 {
      assert |encoded| % 8 == |encoded|;
    }
  }

  /** With one byte value only the root is a leaf, every byte gets no code
      and the encoded text starts with "null": `parseInt` throws. */
  lemma CompressSingle(file: string, fileExtension: string, input: seq<Byte>)
    requires SingleSymbol(input)
    ensures Compress(file, fileExtension, input) == None
  {
    var t := HuffTree(input);
    RootShape(input);
    EncodedWithoutCodes(t, input);
    NullPaddedRejected(Encoded(t, input));
  }

  /** With two or more byte values every byte has a code, the encoded text
      is a bit string, and the file holds the header, the printed form of
      the built tree, the padding count and the padded text packed into
      bytes, which unpack to the padded text. */
  lemma CompressDistinct(file: string, fileExtension: string, input: seq<Byte>)
    requires input != [] && !SingleSymbol(input)
    ensures var t := HuffTree(input);
            var encoded := Encoded(t, input);
            var padded := encoded + Zeros(ExtraBits(encoded));
            && t.Internal? && IsBits(encoded)
            && Compress(file, fileExtension, input)
               == Some(Header(file, fileExtension) + CRLF + Bytes(Show(t)) + CRLF
                       + Bytes(IntToString(ExtraBits(encoded))) + CRLF + Pack(padded))
            && Unpack(Pack(padded)) == padded
  {
    var t := HuffTree(input);
    RootShape(input);
    HuffTreeFacts(input);
    forall i | 0 <= i < |input|
      ensures Encode(t, input[i]).Some?
    {
      assert Symbols(t)[input[i]] == 1;
      EncodeDefined(t, input[i]);
    }
    var encoded := Encoded(t, input);
    EncodedIsBits(t, input);
    PaddedIsWhole(encoded);
    LayoutOfBits(file, fileExtension, Printed(LabelQueue(Histogram(input))),
                 encoded + Zeros(ExtraBits(encoded)), ExtraBits(encoded));
    PrintTreeShowsBuiltTree(Histogram(input));
  }

  /** The run fails exactly on inputs made of one repeated byte value. */
  lemma CompressFailsIff(file: string, fileExtension: string, input: seq<Byte>)
    ensures Compress(file, fileExtension, input).None? <==> SingleSymbol(input)
  {
    if input == [] {
      CompressEmpty(file, fileExtension, input);
    } else if SingleSymbol(input) {
      CompressSingle(file, fileExtension, input);
    } else {
      CompressDistinct(file, fileExtension, input);
    }
  }

  /** The steps of `main` in order, on the bytes of the input file. */
  method CompressFile(file: string, fileExtension: string, input: seq<Byte>) returns (out: Option<seq<Byte>>)
    ensures out == Compress(file, fileExtension, input)
  {
    var frequencyArray := MakeFrequencyArray(input);
    ghost var h := Histogram(input);
    assert frequencyArray[..256] == h;
    var queue := MakeQueue(frequencyArray);
    var huffTree := BuildTree(queue);
    assert huffTree == HuffTree(input);
    var tree := PrintTree(frequencyArray);
    assert tree == Printed(LabelQueue(h));
    var encoded := PrintEncoded(huffTree, input);
    var extraBits := ExtraBits(encoded);
    encoded := MakeWholeByte(encoded, extraBits);
    assert encoded == Encoded(HuffTree(input), input) + Zeros(extraBits);
    out := OutToFile(file, fileExtension, tree, Some(encoded), extraBits);
  }

  /** `encode` as evidently intended: a root that is itself a leaf gives its
      own byte the one-bit code "0"; any other root is looked up as before. */
  function EncodeFixed(root: Tree, item: Byte): Option<string>
  {
    if root.Leaf? then (if root.sym == item then Some("0") else None) else Encode(root, item)
  }

  /** The corrected lookup finds a bit-string code exactly for the bytes the
      tree holds, whether the root is a leaf or internal, and agrees with
      `encode` on an internal root. */
  lemma EncodeFixedDefined(root: Tree, item: Byte)
    ensures EncodeFixed(root, item).Some? <==> !root.Empty? && item in Symbols(root)
    ensures EncodeFixed(root, item).Some? ==> IsBits(EncodeFixed(root, item).value)
    ensures root.Internal? ==> EncodeFixed(root, item) == Encode(root, item)
  {
    EncodeDefined(root, item);
    if root.Internal? && Encode(root, item).Some? {
      EncodeSound(root, item);
    }
  }

  /** `printEncoded` over the corrected lookup. */
  function EncodedFixed(root: Tree, input: seq<Byte>): string
  {
    if input == [] then ""
    else
      var b := input[|input| - 1];
      EncodedFixed(root, input[..|input| - 1])
        + match EncodeFixed(root, b) case Some(c) => c case None => "null"
  }

  /** On an internal root the corrected text is the original one. */
  lemma {:induction false} EncodedFixedAgrees(root: Tree, input: seq<Byte>)
    requires root.Internal?
    ensures EncodedFixed(root, input) == Encoded(root, input)
  {
    if input != [] {
      EncodedFixedAgrees(root, input[..|input| - 1]);
      EncodeFixedDefined(root, input[|input| - 1]);
    }
  }

  /** When every byte has a corrected code, the text is a bit string. */
  lemma {:induction false} EncodedFixedIsBits(root: Tree, input: seq<Byte>)
    requires forall i :: 0 <= i < |input| ==> EncodeFixed(root, input[i]).Some?
    ensures IsBits(EncodedFixed(root, input))
  {
    if input != [] {
      var n := |input| - 1;
      EncodedFixedIsBits(root, input[..n]);
      EncodeFixedDefined(root, input[n]);
      var c := EncodeFixed(root, input[n]).value;
      var s := EncodedFixed(root, input[..n]) + c;
      forall i | 0 <= i < |s|
        ensures s[i] == '0' || s[i] == '1'
      {
        if i >= |EncodedFixed(root, input[..n])| {
          assert s[i] == c[i - |EncodedFixed(root, input[..n])|];
        }
      }
    }
  }

  /** The run with the corrected lookup. */
  function CompressFixed(file: string, fileExtension: string, input: seq<Byte>): Option<seq<Byte>>
  {
    var h := Histogram(input);
    var encoded := EncodedFixed(HuffTree(input), input);
    var extraBits := ExtraBits(encoded);
    Layout(file, fileExtension, Printed(LabelQueue(h)), Some(encoded + Zeros(extraBits)), extraBits)
  }

  /** With the corrected lookup every input compresses, its data unpacks to
      the padded bit string, and inputs the original run handled give the
      same bytes as before. */
  lemma CompressFixedSucceeds(file: string, fileExtension: string, input: seq<Byte>)
    ensures var encoded := EncodedFixed(HuffTree(input), input);
            var padded := encoded + Zeros(ExtraBits(encoded));
            && IsBits(encoded)
            && CompressFixed(file, fileExtension, input)
               == Some(Header(file, fileExtension) + CRLF + Bytes(Printed(LabelQueue(Histogram(input)))) + CRLF
                       + Bytes(IntToString(ExtraBits(encoded))) + CRLF + Pack(padded))
            && Unpack(Pack(padded)) == padded
    ensures !SingleSymbol(input) ==> CompressFixed(file, fileExtension, input) == Compress(file, fileExtension, input)
  {
    var t := HuffTree(input);
    HuffTreeFacts(input);
    if input != [] {
      RootShape(input);
      forall i | 0 <= i < |input|
        ensures EncodeFixed(t, input[i]).Some?
      {
        assert Symbols(t)[input[i]] == 1;
        EncodeFixedDefined(t, input[i]);
      }
    }
    EncodedFixedIsBits(t, input);
    var encoded := EncodedFixed(t, input);
    PaddedIsWhole(encoded);
    LayoutOfBits(file, fileExtension, Printed(LabelQueue(Histogram(input))),
                 encoded + Zeros(ExtraBits(encoded)), ExtraBits(encoded));
    if input != [] && !SingleSymbol(input) {
      EncodedFixedAgrees(t, input);
    } else if input == [] {
      assert EncodedFixed(t, input) == "" == Encoded(t, input);
    }
  }
}

=== FILE: container.dfy ===
/** The `.MZIP` container (`outToFile`): the file name, the upper-cased
    extension and, when there is encoded data, the tree text, the number of
    padding bits and the encoded text packed eight characters to a byte. */
module Container {
  import opened Text
  import opened Optional
  import opened Packing

  /** `stream.write(c)` keeps the low eight bits of its argument. */
  function LowByte(x: int): (b: Byte)
    ensures (x - b) % 256 == 0
    ensures 0 <= x < 256 ==> b == x
  {
    x % 256
  }

  /** The bytes written for the characters of `s`, one byte per character. */
  function Bytes(s: string): (b: seq<Byte>)
    ensures |b| == |s| && forall i :: 0 <= i < |s| ==> b[i] == LowByte(s[i] as int)
  {
    seq(|s|, i requires 0 <= i < |s| => LowByte(s[i] as int))
  }

  /** `Character.toUpperCase` restricted to ASCII: 'a'..'z' become
      'A'..'Z', every other character is kept. */
  function UpperChar(c: char): char
  {
    if 'a' <= c <= 'z' then (c as int - 32) as char else c
  }

  /** `toUpperCase` on a string, character by character. */
  function Upper(s: string): (u: string)
    ensures |u| == |s| && forall i :: 0 <= i < |s| ==> u[i] == UpperChar(s[i])
  {
    seq(|s|, i requires 0 <= i < |s| => UpperChar(s[i]))
  }

  /** Carriage return and line feed. */
  const CRLF: seq<Byte> := [13, 10]

  /** `Integer.parseInt(s, 2)`: an optional sign followed by one or more
      binary digits, read most significant first; anything else is a
      `NumberFormatException`, here `None`. */
  function ParseBinary(s: string): (r: Option<int>)
    ensures r.Some? <==> (s != [] && IsBits(s)) || (|s| > 1 && (s[0] == '-' || s[0] == '+') && IsBits(s[1..]))
    ensures s != [] && IsBits(s) ==> r == Some(BitsValue(s))
    ensures r.Some? && s[0] == '-' ==> r.value <= 0
    ensures |s| > 1 && (s[0] == '+' || s[0] == '-') && IsBits(s[1..])
            ==> r == Some(if s[0] == '-' then 0 - BitsValue(s[1..]) else BitsValue(s[1..]))
  {
    if s == [] then None
    else if s[0] == '-' || s[0] == '+' then
      if |s| > 1 && IsBits(s[1..]) then
        var v: int := BitsValue(s[1..]);
        Some(if s[0] == '-' then -v else v)
      else None
    else if IsBits(s) then Some(BitsValue(s))
    else None
  }

  /** The packed data `outToFile` writes for the encoded text: the low
      eight bits of the value of each whole group of eight characters, in
      order; a trailing part shorter than eight is dropped. `None` when a
      group does not parse, where the source throws. */
  function Payload(encoded: string): (r: Option<seq<Byte>>)
    ensures |encoded| < 8 ==> r == Some([])
    ensures r.Some? ==> |r.value| == |encoded| / 8
    ensures IsBits(encoded) ==> r.Some?
    decreases |encoded|
  {
    if |encoded| < 8 then Some([])
    else
      assert IsBits(encoded) ==> IsBits(encoded[..8]) && IsBits(encoded[8..]);
      match ParseBinary(encoded[..8])
      case None => None
      case Some(v) =>
        match Payload(encoded[8..])
        case None => None
        case Some(rest) => Some([LowByte(v)] + rest)
  }

  /** The name bytes, then the upper-cased extension bytes. */
  function Header(file: string, fileExtension: string): seq<Byte>
  {
    Bytes(file) + Bytes(Upper(fileExtension))
  }

  /** The bytes `outToFile` writes, or `None` where it throws. With no
      encoded text (null) only the header is written. */
  function Layout(file: string, fileExtension: string, tree: string, encoded: Option<string>, extraBits: int)
    : (r: Option<seq<Byte>>)
    ensures encoded.None? ==> r == Some(Header(file, fileExtension))
    ensures r.None? <==> encoded.Some? && Payload(encoded.value).None?
    ensures r.Some? && encoded.Some? ==>
              && Header(file, fileExtension) + CRLF <= r.value
              && |r.value| == |Header(file, fileExtension)| + |tree| + |IntToString(extraBits)| + 6 + |encoded.value| / 8
  {
    match encoded
    case None => Some(Header(file, fileExtension))
    case Some(e) =>
      match Payload(e)
      case None => None
      case Some(p) =>
        var head := Header(file, fileExtension) + CRLF;
        var out := head + Bytes(tree) + CRLF + Bytes(IntToString(extraBits)) + CRLF + p;
        assert out[..|head|] == head;
        Some(out)
  }

  /** Packing a bit string: each group of eight characters becomes the byte
      it denotes, most significant bit first. */
  function Pack(bits: string): (r: seq<Byte>)
    requires IsBits(bits)
    ensures |r| == |bits| / 8
    decreases |bits|
  {
    if |bits| < 8 then []
    else
      BitsValueBound(bits[..8]);
      [BitsValue(bits[..8])] + Pack(bits[8..])
  }

  /** Unpacking: every byte back to its eight bits, most significant first. */
  ghost function Unpack(bytes: seq<Byte>): string
  {
    if bytes == [] then "" else ByteBits(bytes[0], 8) + Unpack(bytes[1..])
  }

  /** Unpacking the packed bytes gives back the bit string when it fills
      whole bytes. */
  lemma {:induction false} PackRoundTrip(bits: string)
    requires IsBits(bits) && |bits| % 8 == 0
    ensures Unpack(Pack(bits)) == bits
    decreases |bits|
  {
    if |bits| >= 8 {
      var head, tail := bits[..8], bits[8..];
      assert IsBits(head) && IsBits(tail);
      PackRoundTrip(tail);
      BitsRoundTrip(head);
      assert Pack(bits)[1..] == Pack(tail);
      assert bits == head + tail;
    }
  }

  /** On a bit string every group parses, so the packed data is `Pack`. */
  lemma {:induction false} PayloadOfBits(bits: string)
    requires IsBits(bits)
    ensures Payload(bits) == Some(Pack(bits))
    decreases |bits|
  {
    if |bits| >= 8 {
      var head := bits[..8];
      assert IsBits(head) && IsBits(bits[8..]);
      PayloadOfBits(bits[8..]);
      BitsValueBound(head);
      assert head != [] && head[0] != '-' && head[0] != '+';
    }
  }

  /** A first group that starts with neither a sign nor a binary digit
      makes `parseInt` throw. */
  lemma PayloadRejects(encoded: string)
    requires |encoded| >= 8
    requires encoded[0] !in {'0', '1', '+', '-'}
    ensures Payload(encoded) == None
  {
    var head := encoded[..8];
    assert head[0] == encoded[0];
    assert !IsBits(head);
  }

  /** The container for a padded bit string: the header, CRLF, the tree
      text, CRLF, the padding count in decimal, CRLF, then one byte per
      eight bits, which unpack to the bit string. */
  lemma LayoutOfBits(file: string, fileExtension: string, tree: string, bits: string, extraBits: int)
    requires IsBits(bits) && |bits| % 8 == 0
    ensures Layout(file, fileExtension, tree, Some(bits), extraBits)
            == Some(Header(file, fileExtension) + CRLF + Bytes(tree) + CRLF + Bytes(IntToString(extraBits)) + CRLF + Pack(bits))
    ensures |Pack(bits)| == |bits| / 8 && Unpack(Pack(bits)) == bits
  {
    PayloadOfBits(bits);
    PackRoundTrip(bits);
  }

  /** `outToFile`: write the name, the upper-cased extension and, when the
      encoded text is not null, CRLF, the tree, CRLF, the padding count,
      CRLF and the encoded text eight characters at a time. */
  method OutToFile(file: string, fileExtension: string, tree: string, encoded: Option<string>, extraBits: int)
    returns (out: Option<seq<Byte>>)
    ensures out == Layout(file, fileExtension, tree, encoded, extraBits)
  {
    var stream: seq<Byte> := [];
    stream := WriteChars(stream, file, 0);
    var ext := Upper(fileExtension);
    stream := WriteChars(stream, ext, 0);
    assert stream == Header(file, fileExtension) by {
      assert file[0..] == file && ext[0..] == ext;
    }
    if encoded.None? {
      return Some(stream);
    }
    stream := stream + CRLF;
    stream := WriteChars(stream, tree, 0);
    assert tree[0..] == tree;
    stream := stream + CRLF;
    var extra := " " + IntToString(extraBits);
    stream := WriteChars(stream, extra, 1);
    assert extra[1..] == IntToString(extraBits);
    stream := stream + CRLF;
    out := WritePacked(stream, encoded.value);
  }

  /** One `stream.write` per character of `s` from index `from` on. */
  method WriteChars(stream: seq<Byte>, s: string, from: nat) returns (r: seq<Byte>)
    requires from <= |s|
    ensures r == stream + Bytes(s[from..])
  {
    r := stream;
    for i := from to |s|
      invariant r == stream + Bytes(s[from..i])
    {
      assert s[from..i + 1] == s[from..i] + [s[i]];
      r := r + [LowByte(s[i] as int)];
    }
    assert s[from..|s|] == s[from..];
  }

  /** The bytes `written` so far followed by the payload still to come, or
      `None` when the rest fails to parse. */
  function Prefixed(written: seq<Byte>, rest: Option<seq<Byte>>): Option<seq<Byte>>
  {
    match rest
    case None => None
    case Some(p) => Some(written + p)
  }

  /** Regrouping the written bytes, kept apart so that the step below does
      not reason about it among the arithmetic facts of `Payload`. */
  lemma AppendRegroup(written: seq<Byte>, b: Byte, p: seq<Byte>)
    ensures written + ([b] + p) == (written + [b]) + p
  {
  }

  /** One round of the packing loop: writing the byte of the first group,
      whose value is `v`, and dropping its eight characters leaves the
      final output unchanged. */
  lemma PayloadStep(written: seq<Byte>, rest: string, v: int)
    requires |rest| >= 8 && ParseBinary(rest[..8]) == Some(v)
    ensures Prefixed(written, Payload(rest)) == Prefixed(written + [LowByte(v)], Payload(rest[8..]))
  {
    var b := LowByte(v);
    match Payload(rest[8..])
    case None =>
      assert Payload(rest) == None;
    case Some(p) =>
      assert Payload(rest) == Some([b] + p);
      AppendRegroup(written, b, p);
  }

  /** The packing loop of `outToFile`: `times` = |encoded| / 8 rounds, each
      writing `parseInt` of the first eight characters and dropping them.
      `None` when a group does not parse. */
  method WritePacked(stream: seq<Byte>, encoded: string) returns (out: Option<seq<Byte>>)
    ensures out == match Payload(encoded) case None => None case Some(p) => Some(stream + p)
  {
    var written: seq<Byte> := [];
    var times := |encoded| / 8;
    var rest := encoded;
    assert Payload(rest).Some? ==> written + Payload(rest).value == Payload(rest).value;
    for i := 0 to times
      invariant |rest| == |encoded| - 8 * i && rest == encoded[8 * i..]
      invariant Prefixed(written, Payload(rest)) == Payload(encoded)
    {
      var v := ParseBinary(rest[..8]);
      if v.None? {
        return None;
      }
      PayloadStep(written, rest, v.value);
      written := written + [LowByte(v.value)];
      rest := rest[8..];
    }
    assert Payload(rest) == Some([]);
    assert written + [] == written;
    return Some(stream + written);
  }
}

=== FILE: encoding.dfy ===
/** The encoded text (`printEncoded`): the code of every input byte, in input
    order, as a string of '0' and '1' characters. */
module Encoding {
  import opened Text
  import opened Optional
  import opened HuffmanTree
  import opened Frequency

  /** What `sb.append(encode(root, b))` appends: the code of `b`, or the four
      characters "null" when `encode` gives null. */
  function CodeText(root: Tree, b: Byte): string
  {
    match Encode(root, b)
    case Some(c) => c
    case None => "null"
  }

  /** The text `printEncoded` builds for `input`. */
  function Encoded(root: Tree, input: seq<Byte>): string
  {
    if input == [] then "" else Encoded(root, input[..|input| - 1]) + CodeText(root, input[|input| - 1])
  }

  /** The code of a byte that has one is a bit string; a byte without one
      appends "null". */
  lemma CodeTextCases(root: Tree, b: Byte)
    ensures Encode(root, b).Some? ==> IsBits(CodeText(root, b)) && |CodeText(root, b)| >= 1
    ensures Encode(root, b).None? ==> CodeText(root, b) == "null"
  {
    if Encode(root, b).Some? {
      EncodeSound(root, b);
    }
  }

  /** Encoding one more byte appends its code. */
  lemma EncodedSnoc(root: Tree, p: seq<Byte>, x: Byte)
    ensures Encoded(root, p + [x]) == Encoded(root, p) + CodeText(root, x)
  {
    var px := p + [x];
    assert px[..|px| - 1] == p && px[|px| - 1] == x;
  }

  /** Encoding two pieces of input one after the other gives the two texts
      one after the other. */
  lemma {:induction false} EncodedConcat(root: Tree, a: seq<Byte>, b: seq<Byte>)
    ensures Encoded(root, a + b) == Encoded(root, a) + Encoded(root, b)
    decreases |b|
  {
    if b == [] {
      assert a + b == a;
      assert Encoded(root, a) + "" == Encoded(root, a);
    } else {
      var n := |b| - 1;
      assert b == b[..n] + [b[n]];
      EncodedConcat(root, a, b[..n]);
      EncodedConcatStep(root, a, b[..n], b[n]);
    }
  }

  /** The inductive step of `EncodedConcat`: one more byte on the right. */
  lemma EncodedConcatStep(root: Tree, a: seq<Byte>, init: seq<Byte>, x: Byte)
    requires Encoded(root, a + init) == Encoded(root, a) + Encoded(root, init)
    ensures Encoded(root, a + (init + [x])) == Encoded(root, a) + Encoded(root, init + [x])
  {
    assert a + (init + [x]) == (a + init) + [x];
    EncodedSnoc(root, a + init, x);
    EncodedSnoc(root, init, x);
    ConcatAssoc(Encoded(root, a), Encoded(root, init), CodeText(root, x));
  }

  /** Regrouping a concatenation, kept apart so that the step above does not
      reason about it among all of `Encoded`'s facts. */
  lemma ConcatAssoc(x: string, y: string, z: string)
    ensures (x + y) + z == x + (y + z)
  {
  }

  /** `Encoded` read from the front: the first byte's code, then the rest. */
  lemma EncodedCons(root: Tree, b: Byte, rest: seq<Byte>)
    ensures Encoded(root, [b] + rest) == CodeText(root, b) + Encoded(root, rest)
  {
    EncodedConcat(root, [b], rest);
    EncodedSnoc(root, [], b);
    assert [] + [b] == [b];
    assert "" + CodeText(root, b) == CodeText(root, b);
  }

  /** When every input byte has a code, the encoded text is a bit string. */
  lemma {:induction false} EncodedIsBits(root: Tree, input: seq<Byte>)
    requires forall i :: 0 <= i < |input| ==> Encode(root, input[i]).Some?
    ensures IsBits(Encoded(root, input))
  {
    if input != [] {
      var n := |input| - 1;
      EncodedIsBits(root, input[..n]);
      CodeTextCases(root, input[n]);
    }
  }

  /** When no byte has a code (the root is a leaf or the bare node), the
      text is "null" once per input byte. */
  lemma {:induction false} EncodedWithoutCodes(root: Tree, input: seq<Byte>)
    requires !root.Internal?
    ensures |Encoded(root, input)| == 4 * |input|
    ensures input != [] ==> Encoded(root, input)[..4] == "null"
  {
    if input != [] {
      var n := |input| - 1;
      EncodedWithoutCodes(root, input[..n]);
      EncodeDefined(root, input[n]);
      if n == 0 {
        assert Encoded(root, input) == "" + "null";
      } else {
        assert Encoded(root, input)[..4] == Encoded(root, input[..n])[..4];
      }
    }
  }

  /** Σ over the byte values v below `n` of h[v] × |code(v)|. */
  function CodedLength(h: seq<int>, root: Tree, n: nat): int
    requires n <= |h| && n <= 256
  {
    if n == 0 then 0 else CodedLength(h, root, n - 1) + h[n - 1] * |CodeText(root, n - 1)|
  }

  /** Counting one more occurrence of `b` adds the length of its code. */
  lemma {:induction false} CodedLengthBump(h: seq<int>, root: Tree, n: nat, b: Byte)
    requires n <= |h| && n <= 256 && b < |h|
    ensures CodedLength(h[b := h[b] + 1], root, n)
            == CodedLength(h, root, n) + (if b < n then |CodeText(root, b)| else 0)
  {
    if n > 0 {
      CodedLengthBump(h, root, n - 1, b);
      var g := h[b := h[b] + 1];
      var c := |CodeText(root, n - 1)|;
      assert CodedLength(g, root, n) == CodedLength(g, root, n - 1) + g[n - 1] * c;
      assert CodedLength(h, root, n) == CodedLength(h, root, n - 1) + h[n - 1] * c;
      if n - 1 == b {
        MulSucc(h[n - 1], c);
      } else {
        assert g[n - 1] == h[n - 1];
      }
    }
  }

  /** One more occurrence adds one more code length to the product; kept
      apart so that the multiplication is not reasoned about among the
      unfoldings of `CodeText`. */
  lemma MulSucc(x: int, c: int)
    ensures (x + 1) * c == x * c + c
  {
  }

  lemma {:induction false} CodedLengthOfZeros(h: seq<int>, root: Tree, n: nat)
    requires n <= |h| && n <= 256
    requires forall v :: 0 <= v < |h| ==> h[v] == 0
    ensures CodedLength(h, root, n) == 0
  {
    if n > 0 {
      CodedLengthOfZeros(h, root, n - 1);
    }
  }

  /** The encoded text is as long as the sum, over all byte values, of the
      value's count times the length of its code. */
  lemma {:induction false} EncodedLength(root: Tree, input: seq<Byte>)
    ensures |Encoded(root, input)| == CodedLength(Histogram(input), root, 256)
  {
    if input == [] {
      CodedLengthOfZeros(Histogram(input), root, 256);
    } else {
      var p, b := input[..|input| - 1], input[|input| - 1];
      assert input == p + [b];
      EncodedLength(root, p);
      HistogramStep(p, b);
      CodedLengthBump(Histogram(p), root, 256, b);
    }
  }

  /** `printEncoded`: append the code of every input byte, in order. */
  method PrintEncoded(root: Tree, input: seq<Byte>) returns (encoded: string)
    ensures encoded == Encoded(root, input)
  {
    var sb := "";
    var n := 0;
    while n < |input|
      invariant 0 <= n <= |input|
      invariant sb == Encoded(root, input[..n])
    {
      assert input[..n + 1][..n] == input[..n];
      sb := sb + CodeText(root, input[n]);
      n := n + 1;
    }
    assert input[..n] == input;
    encoded := sb;
  }
}

=== FILE: frequency.dfy ===
/** Frequency counting (`makeFrequencyArray`): a 256-entry histogram of the
    byte values of the input. */
module Frequency {
  import opened Text

  /** Entry `v` is the number of occurrences of byte value `v` in `input`. */
  function Histogram(input: seq<Byte>): (h: seq<int>)
    ensures |h| == 256
  {
    seq(256, (v: int) requires 0 <= v < 256 => multiset(input)[v])
  }

  /** The sum of the entries of `h`. */
  function Sum(h: seq<int>): int
  {
    if h == [] then 0 else Sum(h[..|h| - 1]) + h[|h| - 1]
  }

  /** Changing one entry changes the sum by the difference. */
  lemma {:induction false} SumUpdate(h: seq<int>, i: nat, x: int)
    requires i < |h|
    ensures Sum(h[i := x]) == Sum(h) - h[i] + x
  {
    var n := |h| - 1;
    var g := h[i := x];
    if i < n {
      assert g[..n] == h[..n][i := x];
      SumUpdate(h[..n], i, x);
    } else {
      assert g[..n] == h[..n];
    }
  }

  /** Counting one more byte adds one to its entry and leaves the others. */
  lemma HistogramStep(input: seq<Byte>, b: Byte)
    ensures Histogram(input + [b]) == Histogram(input)[b := Histogram(input)[b] + 1]
  {
    assert multiset(input + [b]) == multiset(input) + multiset{b};
  }

  /** Every entry is a non-negative count and the entries sum to the number of
      bytes read. */
  lemma {:induction false} HistogramTotal(input: seq<Byte>)
    ensures forall v :: 0 <= v < 256 ==> Histogram(input)[v] >= 0
    ensures Sum(Histogram(input)) == |input|
  {
    if input == [] {
      var h := Histogram(input);
      assert forall v :: 0 <= v < 256 ==> h[v] == 0;
      SumOfZeros(h);
    } else {
      var p, b := input[..|input| - 1], input[|input| - 1];
      assert input == p + [b];
      HistogramTotal(p);
      HistogramStep(p, b);
      SumUpdate(Histogram(p), b, Histogram(p)[b] + 1);
    }
  }

  lemma {:induction false} SumOfZeros(h: seq<int>)
    requires forall v :: 0 <= v < |h| ==> h[v] == 0
    ensures Sum(h) == 0
  {
    if h != [] {
      SumOfZeros(h[..|h| - 1]);
    }
  }

  /** `makeFrequencyArray`: zero the 256 counters, then read every byte of
      the input and bump the counter whose index equals it. */
  method MakeFrequencyArray(input: seq<Byte>) returns (frequency: array<int>)
    ensures frequency.Length == 256
    ensures forall v :: 0 <= v < 256 ==> frequency[v] == multiset(input)[v]
  {
    frequency := new int[256];
    for i := 0 to 256
      invariant forall v :: 0 <= v < i ==> frequency[v] == 0
    {
      frequency[i] := 0;
    }
    var n := 0;
    while n < |input|
      invariant 0 <= n <= |input|
      invariant forall v :: 0 <= v < 256 ==> frequency[v] == multiset(input[..n])[v]
    {
      var c := input[n];
      assert input[..n + 1] == input[..n] + [c];
      for i := 0 to 256
        invariant forall v :: 0 <= v < i ==> frequency[v] == multiset(input[..n + 1])[v]
        invariant forall v :: i <= v < 256 ==> frequency[v] == multiset(input[..n])[v]
      {
        if c == i {
          frequency[i] := frequency[i] + 1;
        }
      }
      n := n + 1;
    }
    assert input[..n] == input;
  }
}

=== FILE: huffman_tree.dfy ===
/** The Huffman tree (BinaryTreeNode<Byte> as the compressor builds it) and the
    recursive code lookup `encode`. */
module HuffmanTree {
  import opened Text
  import opened Optional

  /** A tree node and its priority (`weight`). `Empty` is the node
      `new BinaryTreeNode<Byte>()`: no item and no children; the tree builder
      returns it, with the default priority 0, for an empty queue. A `Leaf`
      holds a byte value and its count; an `Internal` node holds no item and
      two children. */
  datatype Tree =
    | Empty(weight: int)
    | Leaf(sym: Byte, weight: int)
    | Internal(left: Tree, right: Tree, weight: int)

  /** `merge`: a new node with no item and the two given children; its
      priority is the default 0 until the caller sets it. */
  function Merge(left: Tree, right: Tree): (r: Tree)
    ensures r.Internal? && r.left == left && r.right == right && r.weight == 0
    ensures Symbols(r) == Symbols(left) + Symbols(right)
    ensures Leaves(r) == Leaves(left) + Leaves(right)
  {
    Internal(left, right, 0)
  }

  /** `setPriority`: the same node with its priority replaced. */
  function SetPriority(t: Tree, p: int): (r: Tree)
    ensures r.weight == p
    ensures r.Internal? == t.Internal? && (r.Internal? ==> r.left == t.left && r.right == t.right)
    ensures r.Leaf? == t.Leaf? && (r.Leaf? ==> r.sym == t.sym)
  {
    t.(weight := p)
  }

  /** The byte values held by the leaves, with multiplicity. */
  function Symbols(t: Tree): multiset<Byte>
  {
    match t
    case Empty(_) => multiset{}
    case Leaf(s, _) => multiset{s}
    case Internal(l, r, _) => Symbols(l) + Symbols(r)
  }

  /** The leaves themselves, as (byte value, priority) pairs, with
      multiplicity. */
  function Leaves(t: Tree): multiset<(Byte, int)>
  {
    match t
    case Empty(_) => multiset{}
    case Leaf(s, w) => multiset{(s, w)}
    case Internal(l, r, _) => Leaves(l) + Leaves(r)
  }

  function InternalCount(t: Tree): nat
  {
    match t
    case Internal(l, r, _) => 1 + InternalCount(l) + InternalCount(r)
    case _ => 0
  }

  /** No `Empty` node anywhere: every node is a leaf or has two real children. */
  predicate Proper(t: Tree)
  {
    match t
    case Empty(_) => false
    case Leaf(_, _) => true
    case Internal(l, r, _) => Proper(l) && Proper(r)
  }

  /** Every internal node's priority is the sum of its children's. */
  predicate WellWeighted(t: Tree)
  {
    match t
    case Internal(l, r, w) => w == l.weight + r.weight && WellWeighted(l) && WellWeighted(r)
    case _ => true
  }

  /** A full binary tree has one internal node fewer than it has leaves. */
  lemma {:induction false} FullTreeCounts(t: Tree)
    requires Proper(t)
    ensures |Symbols(t)| >= 1
    ensures InternalCount(t) == |Symbols(t)| - 1
  {
    match t
    case Leaf(_, _) =>
    case Internal(l, r, _) =>
      FullTreeCounts(l);
      FullTreeCounts(r);
  }

  /** `encode(root, item)`: the '0'/'1' path from `root` to the leaf holding
      `item`, looked up in the source's order (left child leaf, right child
      leaf, left subtree, right subtree); `None` stands for Java's null, given
      when `root` is itself a leaf or has no children, or when no leaf holds
      `item`. */
  function Encode(root: Tree, item: Byte): (r: Option<string>)
    ensures !root.Internal? ==> r.None?
    ensures r.Some? ==> |r.value| >= 1 && IsBits(r.value) && item in Symbols(root)
  {
    match root
    case Empty(_) => None
    case Leaf(_, _) => None
    case Internal(l, r, _) =>
      if l.Leaf? && l.sym == item then Some("0")
      else if r.Leaf? && r.sym == item then Some("1")
      else match Encode(l, item)
        case Some(c) => Some("0" + c)
        case None =>
          match Encode(r, item)
          case Some(c) => Some("1" + c)
          case None => None
  }

  /** The node reached by walking `path` down from `t` ('0' = left,
      '1' = right), if every step exists. */
  function Follow(t: Tree, path: string): Option<Tree>
  {
    if path == [] then Some(t)
    else match t
      case Internal(l, r, _) =>
        if path[0] == '0' then Follow(l, path[1..])
        else if path[0] == '1' then Follow(r, path[1..])
        else None
      case _ => None
  }

  /** Walking `a + b` is walking `a`, then `b` from where `a` ended. */
  lemma {:induction false} FollowAppend(t: Tree, a: string, b: string)
    ensures Follow(t, a + b) == match Follow(t, a) case Some(u) => Follow(u, b) case None => None
  {
    if a == [] {
      assert a + b == b;
    } else {
      assert (a + b)[0] == a[0] && (a + b)[1..] == a[1..] + b;
      match t
      case Internal(l, r, _) =>
        FollowAppend(l, a[1..], b);
        FollowAppend(r, a[1..], b);
      case _ =>
    }
  }

  /** Only a leaf's own symbols are reachable below it. */
  lemma {:induction false} FollowedLeafIsSymbol(t: Tree, path: string)
    requires Follow(t, path).Some? && Follow(t, path).value.Leaf?
    ensures Follow(t, path).value.sym in Symbols(t)
  {
    if path != [] {
      match t
      case Internal(l, r, _) =>
        if path[0] == '0' {
          FollowedLeafIsSymbol(l, path[1..]);
        } else {
          FollowedLeafIsSymbol(r, path[1..]);
        }
    }
  }

  /** A code `encode` returns is a non-empty bit string, and walking it from
      the root ends at a leaf holding the looked-up byte. */
  lemma {:induction false} EncodeSound(t: Tree, item: Byte)
    requires Encode(t, item).Some?
    ensures var c := Encode(t, item).value;
            && |c| >= 1 && IsBits(c)
            && Follow(t, c).Some? && Follow(t, c).value.Leaf? && Follow(t, c).value.sym == item
  {
    match t
    case Internal(l, r, _) =>
      var c := Encode(t, item).value;
      if l.Leaf? && l.sym == item {
      } else if r.Leaf? && r.sym == item {
      } else if Encode(l, item).Some? {
        EncodeSound(l, item);
        assert c[1..] == Encode(l, item).value;
      } else {
        EncodeSound(r, item);
        assert c[1..] == Encode(r, item).value;
      }
  }

  /** On an internal root, every byte held by a leaf gets a code. */
  lemma {:induction false} EncodeComplete(t: Tree, item: Byte)
    requires t.Internal? && item in Symbols(t)
    ensures Encode(t, item).Some?
  {
    var l, r := t.left, t.right;
    if l.Leaf? && l.sym == item {
    } else if r.Leaf? && r.sym == item {
    } else if item in Symbols(l) {
      assert l.Internal?;
      EncodeComplete(l, item);
    } else {
      assert item in Symbols(r) && r.Internal?;
      EncodeComplete(r, item);
    }
  }

  /** `encode` finds a code exactly when the root is internal and some leaf
      holds the byte; otherwise it gives null. */
  lemma EncodeDefined(t: Tree, item: Byte)
    ensures Encode(t, item).Some? <==> t.Internal? && item in Symbols(t)
  {
    if Encode(t, item).Some? {
      EncodeSound(t, item);
      FollowedLeafIsSymbol(t, Encode(t, item).value);
    }
    if t.Internal? && item in Symbols(t) {
      EncodeComplete(t, item);
    }
  }

  /** No path continues below a leaf. */
  lemma LeafEndsPath(t: Tree, a: string, rest: string)
    requires Follow(t, a).Some? && Follow(t, a).value.Leaf?
    requires Follow(t, a + rest).Some?
    ensures rest == []
  {
    FollowAppend(t, a, rest);
  }

  /** The codes are prefix-free: a code that is a prefix of another code
      belongs to the same byte. */
  lemma PrefixFree(t: Tree, a: Byte, b: Byte)
    requires Encode(t, a).Some? && Encode(t, b).Some?
    ensures var ca, cb := Encode(t, a).value, Encode(t, b).value;
            |ca| <= |cb| && cb[..|ca|] == ca ==> a == b
  {
    var ca, cb := Encode(t, a).value, Encode(t, b).value;
    EncodeSound(t, a);
    EncodeSound(t, b);
    if |ca| <= |cb| && cb[..|ca|] == ca {
      var rest := cb[|ca|..];
      assert cb == ca + rest;
      LeafEndsPath(t, ca, rest);
      assert cb == ca;
    }
  }
}

=== FILE: node.dfy ===
/** A cell of the linked priority queue: an item, its integer priority and
    links to the next and previous cells. */
module LinkedNode {

  class Node<E> {
    var item: E
    var next: Node?<E>
    var prev: Node?<E>
    var priority: int

    /** `Node(item)`: no links; the priority keeps the default 0. */
    constructor (item: E)
      ensures this.item == item && priority == 0
      ensures next == null && prev == null
    {
      this.item := item;
      this.priority := 0;
      this.next := null;
      this.prev := null;
    }

    /** `Node(item, priority)`: the form the queue allocates on enqueue. */
    constructor WithPriority(item: E, priority: int)
      ensures this.item == item && this.priority == priority
      ensures next == null && prev == null
    {
      this.item := item;
      this.priority := priority;
      this.next := null;
      this.prev := null;
    }

    /** `Node(item, next)`: the priority stays at the default 0. */
    constructor WithNext(item: E, next: Node?<E>)
      ensures this.item == item && this.next == next
      ensures priority == 0 && prev == null
    {
      this.item := item;
      this.next := next;
      this.priority := 0;
      this.prev := null;
    }

    function GetNext(): Node?<E>
      reads this
    {
      next
    }

    function GetPrev(): Node?<E>
      reads this
    {
      prev
    }

    function GetItem(): E
      reads this
    {
      item
    }

    function GetPriority(): int
      reads this
    {
      priority
    }

    method SetNext(next: Node?<E>)
      modifies this
      ensures GetNext() == next
      ensures item == old(item) && prev == old(prev) && priority == old(priority)
    {
      this.next := next;
    }

    method SetPrev(prev: Node?<E>)
      modifies this
      ensures GetPrev() == prev
      ensures item == old(item) && next == old(next) && priority == old(priority)
    {
      this.prev := prev;
    }

    method SetPriority(priority: int)
      modifies this
      ensures GetPriority() == priority
      ensures item == old(item) && next == old(next) && prev == old(prev)
    {
      this.priority := priority;
    }
  }
}

=== FILE: optional.dfy ===
/** A value that may be absent: the model's stand-in for a Java null result. */
module Optional {
  datatype Option<T> = None | Some(value: T)
}

=== FILE: packing.dfy ===
/** Padding the encoded text to whole bytes (`extraBits`, `makeWholeByte`)
    and the value of a group of bits read most significant first. */
module Packing {
  import opened Text

  /** `extraBits`: how many '0' characters bring the text to a whole number
      of bytes. */
  function ExtraBits(encoded: string): (extra: int)
    ensures 0 <= extra < 8
    ensures (|encoded| + extra) % 8 == 0
    ensures |encoded| % 8 == 0 ==> extra == 0
  {
    var extra := 8 - |encoded| % 8;
    if extra == 8 then 0 else extra
  }

  /** `k` '0' characters. */
  function Zeros(k: nat): (s: string)
    ensures |s| == k && forall i :: 0 <= i < k ==> s[i] == '0'
  {
    seq(k, _ => '0')
  }

  /** `makeWholeByte`: the text followed by exactly `extraBits` '0'
      characters (none when `extraBits` is not positive). */
  method MakeWholeByte(encoded: string, extraBits: int) returns (r: string)
    ensures r == encoded + Zeros(if extraBits > 0 then extraBits else 0)
  {
    ghost var k := if extraBits > 0 then extraBits else 0;
    r := encoded;
    var i := 0;
    while i < extraBits
      invariant 0 <= i <= k
      invariant r == encoded + Zeros(i)
    {
      assert Zeros(i + 1) == Zeros(i) + "0";
      r := r + "0";
      i := i + 1;
    }
  }

  /** Padding with `ExtraBits` '0's gives a whole number of bytes and keeps a
      bit string a bit string. */
  lemma PaddedIsWhole(s: string)
    ensures (|s + Zeros(ExtraBits(s))|) % 8 == 0
    ensures IsBits(s) ==> IsBits(s + Zeros(ExtraBits(s)))
  {
    var z := s + Zeros(ExtraBits(s));
    if IsBits(s) {
      forall i | 0 <= i < |z|
        ensures z[i] == '0' || z[i] == '1'
      {
        if i < |s| {
          assert z[i] == s[i];
        }
      }
    }
  }

  function Pow2(n: nat): (p: nat)
    ensures p >= 1
  {
    if n == 0 then 1 else 2 * Pow2(n - 1)
  }

  /** The number a bit string denotes, most significant bit first: what
      `Integer.parseInt(s, 2)` gives for a string of '0' and '1'. */
  function BitsValue(s: string): nat
    requires IsBits(s)
  {
    if s == [] then 0 else 2 * BitsValue(s[..|s| - 1]) + (if s[|s| - 1] == '1' then 1 else 0)
  }

  /** `n` bits denote a number below 2^n. */
  lemma {:induction false} BitsValueBound(s: string)
    requires IsBits(s)
    ensures BitsValue(s) < Pow2(|s|)
  {
    if s != [] {
      BitsValueBound(s[..|s| - 1]);
    }
  }

  /** The `n` low bits of `v`, most significant first. */
  function ByteBits(v: nat, n: nat): (s: string)
    ensures |s| == n && IsBits(s)
  {
    if n == 0 then "" else ByteBits(v / 2, n - 1) + [if v % 2 == 1 then '1' else '0']
  }

  /** Writing the value of a bit string back in as many bits gives the
      string again. */
  lemma {:induction false} BitsRoundTrip(s: string)
    requires IsBits(s)
    ensures ByteBits(BitsValue(s), |s|) == s
  {
    if s != [] {
      var p := s[..|s| - 1];
      BitsRoundTrip(p);
      var v := BitsValue(s);
      assert v / 2 == BitsValue(p);
      assert s == p + [s[|s| - 1]];
    }
  }
}

=== FILE: priority_queue.dfy ===
/** The sorted singly-linked priority queue (PriorityQ.java): entries are kept
    in non-decreasing priority order, enqueue walks the list to find its place
    and dequeue pops the head. */
module PriorityQueue {
  import opened LinkedNode

  /** One queued item and its priority. */
  datatype Entry<E> = Entry(item: E, priority: int)

  /** The entries come out in non-decreasing priority order. */
  predicate Sorted<E>(q: seq<Entry<E>>)
  {
    forall i, j :: 0 <= i < j < |q| ==> q[i].priority <= q[j].priority
  }

  /** Length of the leading run of `r` whose priorities are at most `p`:
      how far the enqueue walk advances past the head. */
  function Run<E>(r: seq<Entry<E>>, p: int): (n: nat)
    ensures n <= |r|
    ensures forall j :: 0 <= j < n ==> r[j].priority <= p
    ensures n < |r| ==> p < r[n].priority
  {
    if r == [] || p < r[0].priority then 0 else 1 + Run(r[1..], p)
  }

  /** The walk stops at the first entry whose priority exceeds `p`: any `m`
      with that property is the length of the run. */
  lemma {:induction false} RunEndsAt<E>(r: seq<Entry<E>>, p: int, m: nat)
    requires m <= |r|
    requires forall j :: 0 <= j < m ==> r[j].priority <= p
    requires m < |r| ==> p < r[m].priority
    ensures Run(r, p) == m
  {
    if m > 0 {
      RunEndsAt(r[1..], p, m - 1);
    }
  }

  /** The index at which enqueue places a new entry of priority `p`: in front
      of the head when `p` is at most the head's priority, and otherwise just
      before the first later entry whose priority exceeds `p`. */
  function Slot<E>(q: seq<Entry<E>>, p: int): (k: nat)
    ensures k <= |q|
    ensures k == 0 <==> q == [] || p <= q[0].priority
    ensures forall j :: 1 <= j < k ==> q[j].priority <= p
    ensures 0 < k < |q| ==> p < q[k].priority
  {
    if q == [] || p <= q[0].priority then 0 else 1 + Run(q[1..], p)
  }

  /** The queue contents after enqueuing `e` onto `q`. */
  function Enqueued<E>(q: seq<Entry<E>>, e: Entry<E>): (r: seq<Entry<E>>)
  {
    var k := Slot(q, e.priority);
    q[..k] + [e] + q[k..]
  }

  /** Enqueue adds exactly `e`, removes nothing and keeps the relative
      order of the entries already queued. */
  lemma EnqueuedInserts<E>(q: seq<Entry<E>>, e: Entry<E>)
    ensures |Enqueued(q, e)| == |q| + 1
    ensures multiset(Enqueued(q, e)) == multiset(q) + multiset{e}
    ensures var k := Slot(q, e.priority);
            Enqueued(q, e)[k] == e && Enqueued(q, e)[..k] + Enqueued(q, e)[k + 1..] == q
  {
    var k := Slot(q, e.priority);
    var r := Enqueued(q, e);
    assert q == q[..k] + q[k..];
    calc {
      multiset(r);
      multiset(q[..k]) + multiset{e} + multiset(q[k..]);
      multiset(q[..k] + q[k..]) + multiset{e};
    }
    assert r[..k] == q[..k];
    assert r[k + 1..] == q[k..];
  }

  /** Enqueue keeps a sorted queue sorted. */
  lemma EnqueuedSorted<E>(q: seq<Entry<E>>, e: Entry<E>)
    requires Sorted(q)
    ensures Sorted(Enqueued(q, e))
  {
    var k := Slot(q, e.priority);
    var r := Enqueued(q, e);
    assert forall j :: 0 <= j < k ==> r[j] == q[j];
    assert forall j :: k < j < |r| ==> r[j] == q[j - 1];
    assert 0 < k ==> q[k - 1].priority <= e.priority;
    forall i, j | 0 <= i < j < |r|
      ensures r[i].priority <= r[j].priority
    {
      if j == k {
        assert i < k;
        assert q[i].priority <= q[k - 1].priority;
      } else if i == k {
        assert k < |q| && q[k].priority <= q[j - 1].priority;
      }
    }
  }

  /** The tie rule on a sorted queue. A new entry whose priority is at most
      the head's goes in front of everything (ties at the front are served
      last-in-first-out); any other entry goes after every entry whose
      priority is at most its own and before every greater one (ties
      elsewhere are served first-in-first-out). */
  lemma EnqueueTieRule<E>(q: seq<Entry<E>>, e: Entry<E>)
    requires Sorted(q)
    ensures q != [] && e.priority <= q[0].priority ==> Enqueued(q, e) == [e] + q
    ensures forall j :: 0 <= j < |q| ==>
              (j < Slot(q, e.priority) <==> q[0].priority < e.priority && q[j].priority <= e.priority)
  {
    var k := Slot(q, e.priority);
    forall j | 0 <= j < |q|
      ensures j < k <==> q[0].priority < e.priority && q[j].priority <= e.priority
    {
      if k < j {
        assert q[k].priority <= q[j].priority;
      }
    }
  }

  /** The head of a non-empty sorted queue has the least priority, and what
      remains after removing it is still sorted. */
  lemma HeadIsMinimum<E>(q: seq<Entry<E>>)
    requires Sorted(q) && q != []
    ensures forall j :: 0 <= j < |q| ==> q[0].priority <= q[j].priority
    ensures Sorted(q[1..])
  {
  }

  /** The queue contents after enqueuing each entry of `es`, in order. */
  function EnqueueAll<E>(q: seq<Entry<E>>, es: seq<Entry<E>>): seq<Entry<E>>
  {
    if es == [] then q else Enqueued(EnqueueAll(q, es[..|es| - 1]), es[|es| - 1])
  }

  /** Enqueuing a batch keeps a sorted queue sorted and adds exactly the
      batch's entries. */
  lemma {:induction false} EnqueueAllSortedPermutation<E>(q: seq<Entry<E>>, es: seq<Entry<E>>)
    ensures Sorted(q) ==> Sorted(EnqueueAll(q, es))
    ensures multiset(EnqueueAll(q, es)) == multiset(q) + multiset(es)
  {
    if es != [] {
      var init, last := es[..|es| - 1], es[|es| - 1];
      assert es == init + [last];
      EnqueueAllSortedPermutation(q, init);
      EnqueuedInserts(EnqueueAll(q, init), last);
      if Sorted(q) {
        EnqueuedSorted(EnqueueAll(q, init), last);
      }
    }
  }

  /** Two queues whose entries carry the same priorities, position by
      position, whatever their items. */
  predicate SamePriorities<A, B>(a: seq<Entry<A>>, b: seq<Entry<B>>)
  {
    |a| == |b| && forall i :: 0 <= i < |a| ==> a[i].priority == b[i].priority
  }

  /** The enqueue walk looks only at priorities. */
  lemma {:induction false} RunByPriorities<A, B>(a: seq<Entry<A>>, b: seq<Entry<B>>, p: int)
    requires SamePriorities(a, b)
    ensures Run(a, p) == Run(b, p)
  {
    if a != [] {
      assert SamePriorities(a[1..], b[1..]);
      RunByPriorities(a[1..], b[1..], p);
    }
  }

  /** Where an entry is placed depends only on the priorities queued, not on
      the items. */
  lemma SlotByPriorities<A, B>(a: seq<Entry<A>>, b: seq<Entry<B>>, p: int)
    requires SamePriorities(a, b)
    ensures Slot(a, p) == Slot(b, p)
  {
    if a != [] {
      assert SamePriorities(a[1..], b[1..]);
      RunByPriorities(a[1..], b[1..], p);
    }
  }

  /** `a` with `x` inserted at index `k`. */
  function Spliced<T>(a: seq<T>, k: nat, x: T): (r: seq<T>)
    requires k <= |a|
    ensures |r| == |a| + 1 && r[k] == x
    ensures forall i :: 0 <= i < k ==> r[i] == a[i]
    ensures forall i :: k < i < |r| ==> r[i] == a[i - 1]
  {
    a[..k] + [x] + a[k..]
  }

  /** The cell the one at index `i` should link to: the next one, or null
      after the last. */
  function Successor<E>(s: seq<Node<E>>, i: nat): Node?<E>
  {
    if i + 1 < |s| then s[i + 1] else null
  }

  /** Every cell of `s` links to its successor. */
  ghost predicate Chained<E>(s: seq<Node<E>>)
    reads set i | 0 <= i < |s| :: s[i]
  {
    forall i :: 0 <= i < |s| ==> s[i].next == Successor(s, i)
  }

  /** The cells `s` are distinct, form a null-terminated chain and carry
      the entries `c`, in order. */
  ghost predicate Holds<E>(s: seq<Node<E>>, c: seq<Entry<E>>)
    reads set i | 0 <= i < |s| :: s[i]
  {
    && |s| == |c|
    && (forall i, j :: 0 <= i < j < |s| ==> s[i] != s[j])
    && Chained(s)
    && (forall i :: 0 <= i < |s| ==> s[i].item == c[i].item && s[i].priority == c[i].priority)
  }

  /** A fresh cell linked to the old head, in front of the list, gives a
      list holding its entry in front. */
  lemma ConsHolds<E>(s: seq<Node<E>>, c: seq<Entry<E>>, x: Node<E>, e: Entry<E>)
    requires s != [] && x !in s && Holds(s, c)
    requires x.next == s[0] && x.item == e.item && x.priority == e.priority
    ensures Holds([x] + s, [e] + c)
  {
    var t, d := [x] + s, [e] + c;
    forall i | 0 < i < |t|
      ensures t[i] == s[i - 1] && d[i] == c[i - 1] && Successor(t, i) == Successor(s, i - 1)
    {
    }
    forall i, j | 0 <= i < j < |t|
      ensures t[i] != t[j]
    {
    }
  }

  /** Splicing a fresh cell in after cell `k`, relinked on both sides,
      gives a list holding the entry spliced in at the same place. */
  lemma SplicedHolds<E>(s: seq<Node<E>>, c: seq<Entry<E>>, k: nat, x: Node<E>, e: Entry<E>)
    requires k < |s| == |c| && x !in s
    requires forall i, j :: 0 <= i < j < |s| ==> s[i] != s[j]
    requires forall i :: 0 <= i < |s| ==> s[i].item == c[i].item && s[i].priority == c[i].priority
    requires forall i :: 0 <= i < |s| && i != k ==> s[i].next == Successor(s, i)
    requires s[k].next == x && x.next == Successor(s, k)
    requires x.item == e.item && x.priority == e.priority
    ensures Holds(Spliced(s, k + 1, x), Spliced(c, k + 1, e))
    ensures var t := Spliced(s, k + 1, x); forall i :: 0 <= i < |t| ==> t[i] == x || t[i] in s
  {
    SplicedLinks(s, k, x);
    SplicedEntries(s, c, k + 1, x, e);
    SplicedCells(s, k + 1, x);
  }

  /** Relinking cell `k` to `x` and `x` to cell `k`'s old successor chains
      the spliced list. */
  lemma SplicedLinks<E>(s: seq<Node<E>>, k: nat, x: Node<E>)
    requires k < |s|
    requires forall i :: 0 <= i < |s| && i != k ==> s[i].next == Successor(s, i)
    requires s[k].next == x && x.next == Successor(s, k)
    ensures Chained(Spliced(s, k + 1, x))
  {
    var t := Spliced(s, k + 1, x);
    forall i | 0 <= i < |t|
      ensures t[i].next == Successor(t, i)
    {
      if i > k + 1 {
        assert t[i] == s[i - 1] && Successor(t, i) == Successor(s, i - 1);
      } else if i < k {
        assert t[i] == s[i] && Successor(t, i) == Successor(s, i);
      }
    }
  }

  /** Splicing a cell and its entry at the same index keeps cells and
      entries matched. */
  lemma SplicedEntries<E>(s: seq<Node<E>>, c: seq<Entry<E>>, k: nat, x: Node<E>, e: Entry<E>)
    requires |s| == |c| && k <= |s|
    requires forall i :: 0 <= i < |s| ==> s[i].item == c[i].item && s[i].priority == c[i].priority
    requires x.item == e.item && x.priority == e.priority
    ensures var t, d := Spliced(s, k, x), Spliced(c, k, e);
            forall i :: 0 <= i < |t| ==> t[i].item == d[i].item && t[i].priority == d[i].priority
  {
    var t, d := Spliced(s, k, x), Spliced(c, k, e);
    forall i | 0 <= i < |t|
      ensures t[i].item == d[i].item && t[i].priority == d[i].priority
    {
      if i < k {
        assert t[i] == s[i] && d[i] == c[i];
      } else if i > k {
        assert t[i] == s[i - 1] && d[i] == c[i - 1];
      }
    }
  }

  /** Splicing a cell not yet in the list keeps the cells distinct and adds
      only that cell. */
  lemma SplicedCells<E>(s: seq<Node<E>>, k: nat, x: Node<E>)
    requires k <= |s| && x !in s
    requires forall i, j :: 0 <= i < j < |s| ==> s[i] != s[j]
    ensures var t := Spliced(s, k, x);
            && (forall i :: 0 <= i < |t| ==> t[i] == x || t[i] in s)
            && (forall i, j :: 0 <= i < j < |t| ==> t[i] != t[j])
  {
    var t := Spliced(s, k, x);
    forall i | 0 <= i < |t|
      ensures t[i] == x || t[i] in s
    {
      if i < k {
        assert t[i] == s[i];
      } else if i > k {
        assert t[i] == s[i - 1];
      }
    }
    forall i, j | 0 <= i < j < |t|
      ensures t[i] != t[j]
    {
      if j < k {
        assert t[i] == s[i] && t[j] == s[j];
      } else if i > k {
        assert t[i] == s[i - 1] && t[j] == s[j - 1];
      } else if i < k && j > k {
        assert t[i] == s[i] && t[j] == s[j - 1];
      } else if i == k {
        assert t[j] == s[j - 1];
      } else {
        assert t[i] == s[i];
      }
    }
  }

  class PriorityQ<E> {
    var head: Node?<E>
    /** The queued entries, head first. */
    ghost var Contents: seq<Entry<E>>
    /** The linked cells, head first. */
    ghost var Spine: seq<Node<E>>
    ghost var Repr: set<object>

    ghost predicate Valid()
      reads this, Repr
    {
      && this in Repr
      && |Spine| == |Contents|
      && (forall i :: 0 <= i < |Spine| ==> Spine[i] in Repr)
      && (forall i, j :: 0 <= i < j < |Spine| ==> Spine[i] != Spine[j])
      && head == (if Spine == [] then null else Spine[0])
      && (forall i :: 0 <= i < |Spine| - 1 ==> Spine[i].next == Spine[i + 1])
      && (Spine != [] ==> Spine[|Spine| - 1].next == null)
      && (forall i :: 0 <= i < |Spine| ==>
            Spine[i].item == Contents[i].item && Spine[i].priority == Contents[i].priority)
    }

    constructor ()
      ensures Valid() && fresh(Repr)
      ensures Contents == []
    {
      head := null;
      Contents := [];
      Spine := [];
      Repr := {this};
    }

    method Enqueue(toAdd: E, priority: int)
      requires Valid()
      modifies Repr
      ensures Valid() && fresh(Repr - old(Repr))
      ensures Contents == Enqueued(old(Contents), Entry(toAdd, priority))
    {
      var tempNode := head;
      var newNode := new Node.WithPriority(toAdd, priority);
      ghost var e := Entry(toAdd, priority);

      if head == null {
        head := newNode;
        Spine, Contents, Repr := [newNode], [e], Repr + {newNode};
        return;
      }

      if priority <= tempNode.GetPriority() {
        assert Enqueued(Contents, e) == [e] + Contents by {
          assert Slot(Contents, priority) == 0;
        }
        LinkFront(newNode);
        return;
      }

      ghost var k;
      tempNode, k := FindPredecessor(priority);
      LinkAfter(tempNode, newNode, k);
    }

    /** Enqueue's walk from the head: stops at the last cell whose successor
        is missing or has a priority above `priority`, which is the cell just
        in front of the slot the new entry takes. */
    method FindPredecessor(priority: int) returns (tempNode: Node<E>, ghost k: nat)
      requires Valid() && head != null && head.priority < priority
      ensures k < |Spine| && tempNode == Spine[k]
      ensures Slot(Contents, priority) == k + 1
    {
      tempNode := head;
      k := 0;
      while tempNode.GetNext() != null && tempNode.GetNext().GetPriority() <= priority
        invariant 0 <= k < |Spine| && tempNode == Spine[k]
        invariant forall j :: 1 <= j <= k ==> Contents[j].priority <= priority
        decreases |Spine| - k
      {
        assert k + 1 < |Spine|;
        tempNode := tempNode.GetNext();
        k := k + 1;
      }
      assert Contents[0].priority < priority;
      assert k + 1 < |Contents| ==> priority < Contents[k + 1].priority;
      RunEndsAt(Contents[1..], priority, k);
    }

    /** Makes the fresh cell `newNode` the new head, in front of the old one. */
    method LinkFront(newNode: Node<E>)
      requires Valid() && head != null
      requires newNode !in Repr && newNode.next == null
      modifies this, newNode
      ensures Valid() && Repr == old(Repr) + {newNode}
      ensures Contents == old([Entry(newNode.item, newNode.priority)] + Contents)
    {
      ghost var s := Spine;
      ghost var c := Contents;
      ghost var e := Entry(newNode.item, newNode.priority);
      assert newNode !in s;
      newNode.SetNext(head);
      head := newNode;
      Spine := [newNode] + s;
      Contents := [e] + c;
      Repr := Repr + {newNode};
      ConsHolds(s, c, newNode, e);
      HoldsValid();
    }

    /** Splices the fresh cell `newNode` in just after `tempNode`, the cell at
        index `k`. */
    method LinkAfter(tempNode: Node<E>, newNode: Node<E>, ghost k: nat)
      requires Valid() && k < |Spine| && tempNode == Spine[k]
      requires newNode !in Repr && newNode.next == null
      modifies Repr, newNode
      ensures Valid() && Repr == old(Repr) + {newNode}
      ensures Contents == old(Contents[..k + 1] + [Entry(newNode.item, newNode.priority)] + Contents[k + 1..])
    {
      ghost var e := Entry(newNode.item, newNode.priority);
      ghost var s := Spine;
      ghost var c := Contents;
      assert newNode !in s;
      newNode.SetNext(tempNode.GetNext());
      tempNode.SetNext(newNode);
      assert forall i :: 0 <= i < |s| && i != k ==> s[i].next == Successor(s, i);
      ghost var r := Repr;
      Spine := Spliced(s, k + 1, newNode);
      Contents := Spliced(c, k + 1, e);
      Repr := Repr + {newNode};
      SplicedValid(s, c, r, k, newNode, e);
    }

    /** After the relinking of `LinkAfter`, the queue is valid again. */
    lemma SplicedValid(s: seq<Node<E>>, c: seq<Entry<E>>, r: set<object>, k: nat, x: Node<E>, e: Entry<E>)
      requires k < |s| == |c| && x !in s && this in r
      requires forall i :: 0 <= i < |s| ==> s[i] in r
      requires forall i, j :: 0 <= i < j < |s| ==> s[i] != s[j]
      requires forall i :: 0 <= i < |s| ==> s[i].item == c[i].item && s[i].priority == c[i].priority
      requires forall i :: 0 <= i < |s| && i != k ==> s[i].next == Successor(s, i)
      requires s[k].next == x && x.next == Successor(s, k)
      requires x.item == e.item && x.priority == e.priority
      requires Spine == Spliced(s, k + 1, x) && Contents == Spliced(c, k + 1, e)
      requires Repr == r + {x} && head == s[0]
      ensures Valid()
    {
      SplicedHolds(s, c, k, x, e);
      HoldsValid();
    }

    /** The linked cells hold the contents and are all in the footprint. */
    lemma HoldsValid()
      requires this in Repr && (forall i :: 0 <= i < |Spine| ==> Spine[i] in Repr)
      requires head == (if Spine == [] then null else Spine[0])
      requires Holds(Spine, Contents)
      ensures Valid()
    {
      forall i | 0 <= i < |Spine| - 1
        ensures Spine[i].next == Spine[i + 1]
      {
        assert Successor(Spine, i) == Spine[i + 1];
      }
      if Spine != [] {
        assert Successor(Spine, |Spine| - 1) == null;
      }
    }

    method Dequeue() returns (toDequeue: Node?<E>)
      requires Valid()
      modifies this
      ensures Valid() && Repr <= old(Repr)
      ensures old(Contents) == [] ==> toDequeue == null && Contents == old(Contents)
      ensures old(Contents) != [] ==>
                && toDequeue != null && toDequeue !in Repr
                && toDequeue.item == old(Contents)[0].item
                && toDequeue.priority == old(Contents)[0].priority
                && Contents == old(Contents)[1..]
    {
      if head != null {
        toDequeue := head;
        head := head.GetNext();
        Spine, Contents, Repr := Spine[1..], Contents[1..], Repr - {toDequeue};
      } else {
        toDequeue := null;
      }
    }

    method Size() returns (size: int)
      requires Valid()
      ensures size == |Contents|
    {
      size := 0;
      var tempNode := head;
      while tempNode != null
        invariant 0 <= size <= |Spine|
        invariant tempNode == if size < |Spine| then Spine[size] else null
        decreases |Spine| - size
      {
        size := size + 1;
        tempNode := tempNode.GetNext();
      }
    }

    predicate IsEmpty()
      requires Valid()
      reads this, Repr
      ensures IsEmpty() <==> Contents == []
    {
      head == null
    }
  }
}

=== FILE: text.dfy ===
/** Bytes, bit strings and decimal text as the compressor handles them. */
module Text {

  /** One unsigned byte value. */
  type Byte = b: int | 0 <= b < 256

  /** A string made only of the characters '0' and '1'. */
  predicate IsBits(s: string)
  {
    forall i :: 0 <= i < |s| ==> s[i] == '0' || s[i] == '1'
  }

  predicate IsDigits(s: string)
  {
    forall i :: 0 <= i < |s| ==> '0' <= s[i] <= '9'
  }

  function DigitChar(d: nat): (c: char)
    requires d < 10
    ensures '0' <= c <= '9'
  {
    (48 + d) as char
  }

  /** `Integer.toString(n)` for a non-negative `n`: decimal digits, most
      significant first, with no leading zero. */
  function NatToString(n: nat): (s: string)
    ensures 1 <= |s| && IsDigits(s)
    ensures s[0] == '0' ==> n == 0 && |s| == 1
  {
    if n < 10 then [DigitChar(n)] else NatToString(n / 10) + [DigitChar(n % 10)]
  }

  /** `Integer.toString(i)`, with a minus sign for negative values and no
      leading zero. */
  function IntToString(i: int): (s: string)
    ensures |s| >= 1
    ensures i >= 0 ==> IsDigits(s) && DigitsValue(s) == i
    ensures i < 0 ==> s[0] == '-' && IsDigits(s[1..]) && DigitsValue(s[1..]) == -i
    ensures i >= 0 ==> (s[0] == '0' ==> |s| == 1)
    ensures i < 0 ==> |s| >= 2 && s[1] != '0'
  {
    if i < 0 then
      NatToStringRoundTrip(-i);
      assert ("-" + NatToString(-i))[1..] == NatToString(-i);
      "-" + NatToString(-i)
    else
      NatToStringRoundTrip(i);
      NatToString(i)
  }

  /** The number a string of decimal digits denotes. */
  function DigitsValue(s: string): nat
    requires IsDigits(s)
  {
    if s == [] then 0 else 10 * DigitsValue(s[..|s| - 1]) + (s[|s| - 1] as int - 48)
  }

  /** Reading the decimal text back gives the number. */
  lemma {:induction false} NatToStringRoundTrip(n: nat)
    ensures DigitsValue(NatToString(n)) == n
  {
    if n >= 10 {
      NatToStringRoundTrip(n / 10);
      var s := NatToString(n);
      assert s[..|s| - 1] == NatToString(n / 10);
    }
  }
}

=== FILE: tree_building.dfy ===
/** Leaf seeding (`makeQueue`) and tree building (`buildTree`, `merge`):
    one leaf per byte value that occurs, then repeated merging of the two
    lowest-priority entries of the queue. */
module TreeBuilding {
  import opened Text
  import opened PriorityQueue
  import opened HuffmanTree
  import opened Frequency

  /** The entries `makeQueue` enqueues for the first `n` counters of `h`, in
      the order it enqueues them: ascending byte value, zero counts skipped. */
  function Seeds(h: seq<int>, n: nat): seq<Entry<Tree>>
    requires n <= |h| && n <= 256
  {
    if n == 0 then []
    else Seeds(h, n - 1) + (if h[n - 1] != 0 then [Entry(Leaf(n - 1, h[n - 1]), h[n - 1])] else [])
  }

  /** The byte values held by the leaves of all queued trees. */
  function QueueSymbols(q: seq<Entry<Tree>>): multiset<Byte>
  {
    if q == [] then multiset{} else Symbols(q[0].item) + QueueSymbols(q[1..])
  }

  /** The leaves, with their priorities, of all queued trees. */
  function QueueLeaves(q: seq<Entry<Tree>>): multiset<(Byte, int)>
  {
    if q == [] then multiset{} else Leaves(q[0].item) + QueueLeaves(q[1..])
  }

  function TotalPriority<E>(q: seq<Entry<E>>): int
  {
    if q == [] then 0 else q[0].priority + TotalPriority(q[1..])
  }

  /** A queued tree is consistent when its queue priority is its own
      priority, it has no `Empty` node and its internal priorities add up. */
  predicate EntryConsistent(e: Entry<Tree>)
  {
    e.priority == e.item.weight && Proper(e.item) && WellWeighted(e.item)
  }

  predicate Consistent(q: seq<Entry<Tree>>)
  {
    forall i :: 0 <= i < |q| ==> EntryConsistent(q[i])
  }

  lemma {:induction false} QueueConcat(a: seq<Entry<Tree>>, b: seq<Entry<Tree>>)
    ensures QueueSymbols(a + b) == QueueSymbols(a) + QueueSymbols(b)
    ensures TotalPriority(a + b) == TotalPriority(a) + TotalPriority(b)
  {
    if a != [] {
      assert (a + b)[1..] == a[1..] + b;
      QueueConcat(a[1..], b);
    } else {
      assert a + b == b;
    }
  }

  lemma {:induction false} QueueLeavesConcat(a: seq<Entry<Tree>>, b: seq<Entry<Tree>>)
    ensures QueueLeaves(a + b) == QueueLeaves(a) + QueueLeaves(b)
  {
    if a != [] {
      assert (a + b)[1..] == a[1..] + b;
      QueueLeavesConcat(a[1..], b);
    } else {
      assert a + b == b;
    }
  }

  /** Enqueue adds exactly the new tree's leaves, priorities included, to
      those already queued. */
  lemma EnqueuedLeaves(q: seq<Entry<Tree>>, e: Entry<Tree>)
    ensures QueueLeaves(Enqueued(q, e)) == QueueLeaves(q) + Leaves(e.item)
  {
    var k := Slot(q, e.priority);
    var a, b := q[..k], q[k..];
    assert q == a + b;
    assert Enqueued(q, e) == a + [e] + b;
    QueueLeavesConcat(a, b);
    QueueLeavesConcat(a + [e], b);
    QueueLeavesConcat(a, [e]);
    assert QueueLeaves([e]) == Leaves(e.item) by { assert [e][1..] == []; }
  }

  /** A series of enqueues adds exactly the leaves of the enqueued trees. */
  lemma {:induction false} EnqueueAllLeaves(q: seq<Entry<Tree>>, es: seq<Entry<Tree>>)
    ensures QueueLeaves(EnqueueAll(q, es)) == QueueLeaves(q) + QueueLeaves(es)
  {
    if es != [] {
      var init, last := es[..|es| - 1], es[|es| - 1];
      assert es == init + [last];
      EnqueueAllLeaves(q, init);
      EnqueuedLeaves(EnqueueAll(q, init), last);
      QueueLeavesConcat(init, [last]);
      assert QueueLeaves([last]) == Leaves(last.item) by { assert [last][1..] == []; }
    }
  }

  /** Enqueue adds the new tree's leaves and priority to the queue's totals
      and keeps the queue consistent. */
  lemma EnqueuedTotals(q: seq<Entry<Tree>>, e: Entry<Tree>)
    ensures QueueSymbols(Enqueued(q, e)) == QueueSymbols(q) + Symbols(e.item)
    ensures TotalPriority(Enqueued(q, e)) == TotalPriority(q) + e.priority
    ensures Consistent(q) && EntryConsistent(e) ==> Consistent(Enqueued(q, e))
  {
    var k := Slot(q, e.priority);
    var a, b := q[..k], q[k..];
    assert q == a + b;
    assert Enqueued(q, e) == a + [e] + b;
    QueueConcat(a, b);
    QueueConcat(a + [e], b);
    QueueConcat(a, [e]);
    QueueSymbolsSingle(e);
    assert TotalPriority([e]) == e.priority by { assert [e][1..] == []; }
    if Consistent(q) && EntryConsistent(e) {
      EnqueuedConsistent(q, e);
    }
  }

  lemma EnqueuedConsistent(q: seq<Entry<Tree>>, e: Entry<Tree>)
    requires Consistent(q) && EntryConsistent(e)
    ensures Consistent(Enqueued(q, e))
  {
    var k := Slot(q, e.priority);
    var r := Enqueued(q, e);
    forall i | 0 <= i < |r|
      ensures EntryConsistent(r[i])
    {
      if i < k {
        assert r[i] == q[i];
      } else if i > k {
        assert r[i] == q[i - 1];
      }
    }
  }

  lemma {:induction false} EnqueueAllTotals(q: seq<Entry<Tree>>, es: seq<Entry<Tree>>)
    ensures QueueSymbols(EnqueueAll(q, es)) == QueueSymbols(q) + QueueSymbols(es)
    ensures TotalPriority(EnqueueAll(q, es)) == TotalPriority(q) + TotalPriority(es)
    ensures Consistent(q) && Consistent(es) ==> Consistent(EnqueueAll(q, es))
  {
    if es != [] {
      var init, last := es[..|es| - 1], es[|es| - 1];
      assert es == init + [last];
      EnqueueAllTotals(q, init);
      EnqueuedTotals(EnqueueAll(q, init), last);
      QueueConcat(init, [last]);
      QueueSymbolsSingle(last);
    }
  }

  /** A seeded entry: the leaf for a byte value below `n` whose counter is
      non-zero, with that count as both its priority and its weight. */
  predicate SeedEntry(h: seq<int>, n: nat, e: Entry<Tree>)
  {
    && e.item.Leaf? && e.item.sym < n && e.item.sym < |h| && h[e.item.sym] != 0
    && e.priority == e.item.weight == h[e.item.sym]
  }

  /** Seeding: one leaf per non-zero counter whose priority and weight are
      that count; zero counters are skipped. */
  lemma {:induction false} SeedsAreLeaves(h: seq<int>, n: nat)
    requires n <= |h| && n <= 256
    ensures forall i :: 0 <= i < |Seeds(h, n)| ==> SeedEntry(h, n, Seeds(h, n)[i])
  {
    if n > 0 {
      SeedsAreLeaves(h, n - 1);
      var p := Seeds(h, n - 1);
      var s := Seeds(h, n);
      if h[n - 1] != 0 {
        assert s == p + [Entry(Leaf(n - 1, h[n - 1]), h[n - 1])];
      } else {
        assert s == p;
      }
      forall i | 0 <= i < |s|
        ensures SeedEntry(h, n, s[i])
      {
        if i < |p| {
          assert s[i] == p[i] && SeedEntry(h, n - 1, p[i]);
        }
      }
    }
  }

  /** The seeds come in strictly ascending byte order. */
  lemma {:induction false} SeedsAscending(h: seq<int>, n: nat)
    requires n <= |h| && n <= 256
    ensures forall i, j :: 0 <= i < j < |Seeds(h, n)| ==>
              Seeds(h, n)[i].item.Leaf? && Seeds(h, n)[j].item.Leaf? &&
              Seeds(h, n)[i].item.sym < Seeds(h, n)[j].item.sym
  {
    if n > 0 {
      SeedsAscending(h, n - 1);
      SeedsAreLeaves(h, n - 1);
      var p := Seeds(h, n - 1);
      var s := Seeds(h, n);
      if h[n - 1] != 0 {
        assert s == p + [Entry(Leaf(n - 1, h[n - 1]), h[n - 1])];
        forall i, j | 0 <= i < j < |s|
          ensures s[i].item.Leaf? && s[j].item.Leaf? && s[i].item.sym < s[j].item.sym
        {
          assert s[i] == p[i] && SeedEntry(h, n - 1, p[i]);
          if j < |p| {
            assert s[j] == p[j];
          }
        }
      } else {
        assert s == p;
        forall i, j | 0 <= i < j < |s|
          ensures s[i].item.Leaf? && s[j].item.Leaf? && s[i].item.sym < s[j].item.sym
        {
          assert s[i] == p[i] && s[j] == p[j];
        }
      }
    } else {
      assert Seeds(h, n) == [];
    }
  }

  /** `QueueSymbols` of a queue holding one entry. */
  lemma QueueSymbolsSingle(e: Entry<Tree>)
    ensures QueueSymbols([e]) == Symbols(e.item)
  {
    assert [e][1..] == [];
  }

  /** Each byte value with a non-zero counter is seeded exactly once, and no
      other value is. */
  lemma {:induction false} SeedsSymbols(h: seq<int>, n: nat)
    requires n <= |h| && n <= 256
    ensures forall v: Byte :: QueueSymbols(Seeds(h, n))[v] == if v < n && h[v] != 0 then 1 else 0
  {
    if n == 0 {
      assert QueueSymbols(Seeds(h, n)) == multiset{};
    } else {
      SeedsSymbols(h, n - 1);
      var p := Seeds(h, n - 1);
      var m := QueueSymbols(p);
      if h[n - 1] != 0 {
        var e := Entry(Leaf(n - 1, h[n - 1]), h[n - 1]);
        assert Seeds(h, n) == p + [e];
        QueueConcat(p, [e]);
        QueueSymbolsSingle(e);
        assert QueueSymbols(Seeds(h, n)) == m + multiset{n - 1 as Byte};
      } else {
        assert Seeds(h, n) == p;
      }
      forall v: Byte
        ensures QueueSymbols(Seeds(h, n))[v] == if v < n && h[v] != 0 then 1 else 0
      {
        assert m[v] == if v < n - 1 && h[v] != 0 then 1 else 0;
      }
    }
  }

  /** The seeded priorities add up to the sum of the counters. */
  lemma {:induction false} SeedsTotal(h: seq<int>, n: nat)
    requires n <= |h| && n <= 256
    ensures TotalPriority(Seeds(h, n)) == Sum(h[..n])
  {
    if n > 0 {
      SeedsTotal(h, n - 1);
      var p := Seeds(h, n - 1);
      assert h[..n][..n - 1] == h[..n - 1];
      if h[n - 1] != 0 {
        var e := Entry(Leaf(n - 1, h[n - 1]), h[n - 1]);
        assert Seeds(h, n) == p + [e];
        QueueConcat(p, [e]);
        assert TotalPriority([e]) == h[n - 1] by { assert [e][1..] == []; }
      } else {
        assert Seeds(h, n) == p;
      }
    }
  }

  /** The seeds hold exactly one leaf per byte value below `n` with a
      non-zero counter, weighing that count, and no other leaf. */
  lemma SeedsLeaves(h: seq<int>, n: nat)
    requires n <= |h| && n <= 256
    ensures forall v: Byte, w: int ::
              QueueLeaves(Seeds(h, n))[(v, w)] == if v < n && h[v] != 0 && w == h[v] then 1 else 0
  {
    forall v: Byte, w: int
      ensures QueueLeaves(Seeds(h, n))[(v, w)] == if v < n && h[v] != 0 && w == h[v] then 1 else 0
    {
      SeedLeafCount(h, n, v, w);
    }
  }

  /** `SeedsLeaves` for one (byte value, weight) pair, by induction on `n`. */
  lemma {:induction false} SeedLeafCount(h: seq<int>, n: nat, v: Byte, w: int)
    requires n <= |h| && n <= 256
    ensures QueueLeaves(Seeds(h, n))[(v, w)] == if v < n && h[v] != 0 && w == h[v] then 1 else 0
  {
    if n == 0 {
      assert QueueLeaves(Seeds(h, n)) == multiset{};
    } else {
      SeedLeafCount(h, n - 1, v, w);
      SeedLeavesStep(h, n);
    }
  }

  /** Seeding counter `n - 1` adds its leaf when the count is non-zero and
      nothing otherwise. */
  lemma SeedLeavesStep(h: seq<int>, n: nat)
    requires 0 < n <= |h| && n <= 256
    ensures QueueLeaves(Seeds(h, n)) == QueueLeaves(Seeds(h, n - 1))
              + if h[n - 1] != 0 then multiset{(n - 1 as Byte, h[n - 1])} else multiset{}
  {
    var p := Seeds(h, n - 1);
    if h[n - 1] != 0 {
      var e := Entry(Leaf(n - 1, h[n - 1]), h[n - 1]);
      assert Seeds(h, n) == p + [e];
      QueueLeavesConcat(p, [e]);
      assert QueueLeaves([e]) == multiset{(n - 1 as Byte, h[n - 1])} by { assert [e][1..] == []; }
    } else {
      assert Seeds(h, n) == p;
    }
  }

  lemma SeedsConsistent(h: seq<int>, n: nat)
    requires n <= |h| && n <= 256
    ensures Consistent(Seeds(h, n))
  {
    SeedsAreLeaves(h, n);
    var s := Seeds(h, n);
    forall i | 0 <= i < |s|
      ensures EntryConsistent(s[i])
    {
      assert SeedEntry(h, n, s[i]);
    }
  }

  /** The queue `makeQueue` leaves: the seeds enqueued one after another. */
  function SeededQueue(h: seq<int>): seq<Entry<Tree>>
    requires |h| == 256
  {
    EnqueueAll([], Seeds(h, |h|))
  }

  /** The seeded queue is sorted and consistent, and holds one entry per
      seed. */
  lemma SeededQueueShape(h: seq<int>)
    requires |h| == 256
    ensures Sorted(SeededQueue(h)) && Consistent(SeededQueue(h))
    ensures |SeededQueue(h)| == |Seeds(h, |h|)|
  {
    var s := Seeds(h, |h|);
    var q := EnqueueAll([], s);
    SeedsConsistent(h, |h|);
    EnqueueAllTotals([], s);
    EnqueueAllSortedPermutation([], s);
    assert |q| == |s| by {
      assert multiset(q) == multiset(s);
      assert |q| == |multiset(q)|;
      assert |s| == |multiset(s)|;
    }
  }

  /** The seeded queue holds exactly one leaf per byte value with a non-zero
      count, its priorities adding up to the sum of the counters. */
  lemma SeededQueueTotals(h: seq<int>)
    requires |h| == 256
    ensures forall v: Byte :: QueueSymbols(SeededQueue(h))[v] == if h[v] != 0 then 1 else 0
    ensures TotalPriority(SeededQueue(h)) == Sum(h)
  {
    var s := Seeds(h, |h|);
    SeedsSymbols(h, |h|);
    SeedsTotal(h, |h|);
    EnqueueAllTotals([], s);
    assert h[..|h|] == h;
  }

  /** `merge` followed by `setPriority`: the node `buildTree` makes from two
      dequeued trees, its priority the sum of theirs. */
  function Joined(t1: Tree, t2: Tree): (r: Tree)
    ensures r.Internal? && r.left == t1 && r.right == t2
    ensures r.weight == t1.weight + t2.weight
  {
    SetPriority(Merge(t1, t2), t1.weight + t2.weight)
  }

  /** The tree `buildTree` returns for a queue holding `q`: dequeue two,
      merge them under a node whose priority is the sum of theirs, enqueue
      it, until one entry remains; an empty queue gives the bare node. */
  function Build(q: seq<Entry<Tree>>): (r: Tree)
    ensures q == [] ==> r == Empty(0)
    decreases |q|
  {
    if q == [] then Empty(0)
    else if |q| == 1 then q[0].item
    else
      var joined := Joined(q[0].item, q[1].item);
      var w := joined.weight;
      assert |Enqueued(q[2..], Entry(joined, w))| == |q| - 1;
      Build(Enqueued(q[2..], Entry(joined, w)))
  }

  /** Whatever the queue holds, a single entry comes back as it is and two
      or more end in a merged node at the root. */
  lemma {:induction false} BuildRoot(q: seq<Entry<Tree>>)
    ensures |q| == 1 ==> Build(q) == q[0].item
    ensures |q| >= 2 ==> Build(q).Internal?
    decreases |q|
  {
    if |q| >= 2 {
      var joined := Joined(q[0].item, q[1].item);
      var next := Enqueued(q[2..], Entry(joined, joined.weight));
      assert Build(q) == Build(next);
      BuildRoot(next);
      if |q| == 2 {
        assert next == [Entry(joined, joined.weight)];
      }
    }
  }

  /** One round of `buildTree`'s loop leaves the tree to be built
      unchanged. */
  lemma BuildRound(q: seq<Entry<Tree>>)
    requires |q| >= 2
    ensures var joined := Joined(q[0].item, q[1].item);
            Build(q) == Build(Enqueued(q[2..], Entry(joined, joined.weight)))
  {
  }

  /** `BuildRound` for the queue left by two dequeues and one enqueue. */
  lemma BuildRoundAt(q: seq<Entry<Tree>>, rest: seq<Entry<Tree>>, e: Entry<Tree>)
    requires |q| >= 2 && rest == q[1..][1..]
    requires e.item == Joined(q[0].item, q[1].item) && e.priority == e.item.weight
    ensures |Enqueued(rest, e)| == |q| - 1 && Build(Enqueued(rest, e)) == Build(q)
  {
    assert rest == q[2..];
    BuildRound(q);
  }

  /** Building from a consistent non-empty queue yields a tree holding
      exactly the queued leaves, with no bare node, whose internal priorities
      are the sums of their children's and whose root priority is the sum of
      all queued priorities. One entry comes back unchanged; two or more
      are merged under an internal root; there is one internal node fewer
      than there are leaves. */
  lemma {:induction false} BuildFacts(q: seq<Entry<Tree>>)
    requires q != [] && Consistent(q)
    ensures Proper(Build(q)) && WellWeighted(Build(q))
    ensures Symbols(Build(q)) == QueueSymbols(q)
    ensures Leaves(Build(q)) == QueueLeaves(q)
    ensures Build(q).weight == TotalPriority(q)
    ensures |q| == 1 ==> Build(q) == q[0].item
    ensures |q| >= 2 ==> Build(q).Internal?
    ensures InternalCount(Build(q)) == |QueueSymbols(q)| - 1
    decreases |q|
  {
    BuildShape(q);
    BuildLeaves(q);
    FullTreeCounts(Build(q));
  }

  /** `buildTree` neither drops, adds nor re-weighs a leaf: the built tree
      holds exactly the queued leaves, each with its priority. */
  lemma {:induction false} BuildLeaves(q: seq<Entry<Tree>>)
    ensures Leaves(Build(q)) == QueueLeaves(q)
    decreases |q|
  {
    if |q| == 1 {
      assert q[1..] == [];
    } else if |q| >= 2 {
      var joined := Joined(q[0].item, q[1].item);
      var e := Entry(joined, joined.weight);
      var next := Enqueued(q[2..], e);
      BuildRound(q);
      BuildLeaves(next);
      EnqueuedLeaves(q[2..], e);
      assert q[1..][1..] == q[2..];
      assert Leaves(joined) == Leaves(q[0].item) + Leaves(q[1].item);
    }
  }

  /** The induction on the queue length behind `BuildFacts`. */
  lemma {:induction false} BuildShape(q: seq<Entry<Tree>>)
    requires q != [] && Consistent(q)
    ensures Proper(Build(q)) && WellWeighted(Build(q))
    ensures Symbols(Build(q)) == QueueSymbols(q)
    ensures Build(q).weight == TotalPriority(q)
    ensures |q| == 1 ==> Build(q) == q[0].item
    ensures |q| >= 2 ==> Build(q).Internal?
    decreases |q|
  {
    if |q| == 1 {
      assert q[1..] == [];
    } else {
      var joined := Joined(q[0].item, q[1].item);
      var next := Enqueued(q[2..], Entry(joined, joined.weight));
      RoundTotals(q);
      BuildShape(next);
      if |q| == 2 {
        assert next == [Entry(joined, joined.weight)];
      }
    }
  }

  /** One round of merging keeps the queue consistent and keeps its leaves
      and its total priority, with one entry fewer. */
  lemma RoundTotals(q: seq<Entry<Tree>>)
    requires |q| >= 2 && Consistent(q)
    ensures var joined := Joined(q[0].item, q[1].item);
            var next := Enqueued(q[2..], Entry(joined, joined.weight));
            && Build(q) == Build(next) && |next| == |q| - 1 && next != []
            && Consistent(next)
            && QueueSymbols(next) == QueueSymbols(q)
            && TotalPriority(next) == TotalPriority(q)
  {
    var joined := Joined(q[0].item, q[1].item);
    var e := Entry(joined, joined.weight);
    var rest := q[2..];
    assert EntryConsistent(q[0]) && EntryConsistent(q[1]);
    assert EntryConsistent(e);
    assert Consistent(rest);
    assert q[1..][1..] == rest;
    assert QueueSymbols(q) == Symbols(q[0].item) + Symbols(q[1].item) + QueueSymbols(rest);
    assert TotalPriority(q) == q[0].priority + q[1].priority + TotalPriority(rest);
    EnqueuedTotals(rest, e);
  }

  /** `makeQueue`: one leaf per non-zero counter, enqueued with its count as
      priority, in ascending byte order. */
  method MakeQueue(counts: array<int>) returns (queue: PriorityQ<Tree>)
    requires counts.Length >= 256
    ensures fresh(queue.Repr) && queue.Valid()
    ensures queue.Contents == SeededQueue(counts[..256])
  {
    ghost var h := counts[..256];
    queue := new PriorityQ<Tree>();
    for i := 0 to 256
      invariant queue.Valid() && fresh(queue.Repr)
      invariant queue.Contents == EnqueueAll([], Seeds(h, i))
    {
      SeedCounter(queue, h, i, counts[i]);
    }
  }

  /** One round of `makeQueue`'s loop: a non-zero counter `count` for byte
      value `i` enqueues a leaf with that count as priority. */
  method SeedCounter(queue: PriorityQ<Tree>, ghost h: seq<int>, i: nat, count: int)
    requires queue.Valid() && i < |h| <= 256 && h[i] == count
    requires queue.Contents == EnqueueAll([], Seeds(h, i))
    modifies queue.Repr
    ensures queue.Valid() && fresh(queue.Repr - old(queue.Repr))
    ensures queue.Contents == EnqueueAll([], Seeds(h, i + 1))
  {
    if count != 0 {
      var newNode := Leaf(i, count);
      ghost var e := Entry(newNode, count);
      assert Seeds(h, i + 1) == Seeds(h, i) + [e];
      assert (Seeds(h, i) + [e])[..|Seeds(h, i)|] == Seeds(h, i);
      queue.Enqueue(newNode, count);
    } else {
      assert Seeds(h, i + 1) == Seeds(h, i);
    }
  }

  /** The end of a round of `buildTree`'s loop: merge the two dequeued
      trees, give the new node the sum of their priorities and enqueue it
      with that priority. */
  method EnqueueJoined(queue: PriorityQ<Tree>, temp1: Tree, temp2: Tree) returns (joined: Tree)
    requires queue.Valid()
    modifies queue.Repr
    ensures queue.Valid() && fresh(queue.Repr - old(queue.Repr))
    ensures joined == Joined(temp1, temp2)
    ensures queue.Contents == Enqueued(old(queue.Contents), Entry(joined, joined.weight))
  {
    joined := Merge(temp1, temp2);
    joined := SetPriority(joined, temp1.weight + temp2.weight);
    queue.Enqueue(joined, temp1.weight + temp2.weight);
  }

  /** `buildTree`: merge the two lowest-priority entries until one remains
      and return it; an empty queue returns a fresh bare node. The queue is
      left empty. */
  method BuildTree(queue: PriorityQ<Tree>) returns (root: Tree)
    requires queue.Valid()
    modifies queue.Repr
    ensures queue.Valid() && queue.Contents == []
    ensures root == Build(old(queue.Contents))
  {
    var joined := Empty(0);
    while !queue.IsEmpty()
      invariant queue.Valid() && fresh(queue.Repr - old(queue.Repr))
      invariant Build(queue.Contents) == Build(old(queue.Contents))
      invariant queue.Contents == [] ==> joined == Build(old(queue.Contents))
      decreases |queue.Contents|
    {
      ghost var q := queue.Contents;
      var node1 := queue.Dequeue();
      var temp1 := node1.item;
      if queue.IsEmpty() {
        assert q == [Entry(temp1, q[0].priority)];
        return temp1;
      }
      var node2 := queue.Dequeue();
      var temp2 := node2.item;
      ghost var rest := queue.Contents;
      joined := EnqueueJoined(queue, temp1, temp2);
      BuildRoundAt(q, rest, Entry(joined, joined.weight));
    }
    root := joined;
  }
}

=== FILE: tree_text.dfy ===
/** The one-line tree text (`printTree`): the queue algorithm of `makeQueue`
    and `buildTree` replayed on decimal labels instead of tree nodes. */
module TreeText {
  import opened Text
  import opened PriorityQueue
  import opened HuffmanTree
  import opened TreeBuilding

  /** Two subtree texts joined as "(left right)". */
  function Pair(left: string, right: string): (s: string)
    ensures |s| == |left| + |right| + 3
    ensures s[0] == '(' && s[|s| - 1] == ')' && s[|left| + 1] == ' '
    ensures s[1..|left| + 1] == left && s[|left| + 2..|s| - 1] == right
  {
    "(" + left + " " + right + ")"
  }

  /** A tree written on one line: a leaf is its byte value in decimal, an
      internal node is "(left right)", the bare node is empty. */
  function Show(t: Tree): string
  {
    match t
    case Empty(_) => ""
    case Leaf(s, _) => NatToString(s)
    case Internal(l, r, _) => Pair(Show(l), Show(r))
  }

  /** What `printTree` returns once its queue holds `q`: dequeue two texts,
      enqueue "(a b)" with the sum of their queue priorities, until one
      entry remains; a queue that starts empty gives the empty text. */
  function Printed(q: seq<Entry<string>>): string
    decreases |q|
  {
    if q == [] then ""
    else if |q| == 1 then q[0].item
    else
      var e := Entry(Pair(q[0].item, q[1].item), q[0].priority + q[1].priority);
      EnqueuedInserts(q[2..], e);
      Printed(Enqueued(q[2..], e))
  }

  /** One round of `printTree`'s loop: the first two texts are replaced by
      their pair, enqueued with the sum of their priorities; what will be
      printed does not change. */
  lemma PrintedRound(q: seq<Entry<string>>, rest: seq<Entry<string>>, next: seq<Entry<string>>)
    requires |q| >= 2 && rest == q[2..]
    requires next == Enqueued(rest, Entry(Pair(q[0].item, q[1].item), q[0].priority + q[1].priority))
    ensures Printed(next) == Printed(q)
  {
  }

  /** The labels `printTree` enqueues for the first `n` counters: the
      decimal text of each byte value whose count is non-zero, with that
      count as its priority, in ascending byte order. */
  function LabelSeeds(h: seq<int>, n: nat): seq<Entry<string>>
    requires n <= |h| && n <= 256
  {
    if n == 0 then []
    else LabelSeeds(h, n - 1) + (if h[n - 1] != 0 then [Entry(NatToString(n - 1), h[n - 1])] else [])
  }

  /** The queue `printTree` has filled before it starts merging. */
  function LabelQueue(h: seq<int>): seq<Entry<string>>
    requires |h| == 256
  {
    EnqueueAll([], LabelSeeds(h, |h|))
  }

  /** A queue of trees with every tree replaced by its text. */
  function Labelled(q: seq<Entry<Tree>>): (r: seq<Entry<string>>)
    ensures |r| == |q|
  {
    if q == [] then [] else [Entry(Show(q[0].item), q[0].priority)] + Labelled(q[1..])
  }

  lemma {:induction false} LabelledConcat(a: seq<Entry<Tree>>, b: seq<Entry<Tree>>)
    ensures Labelled(a + b) == Labelled(a) + Labelled(b)
  {
    if a == [] {
      assert a + b == b;
    } else {
      assert (a + b)[1..] == a[1..] + b;
      LabelledConcat(a[1..], b);
    }
  }

  /** Writing a queue as text keeps every priority in its place. */
  lemma {:induction false} LabelledPriorities(q: seq<Entry<Tree>>)
    ensures SamePriorities(q, Labelled(q))
    ensures forall i :: 0 <= i < |q| ==> Labelled(q)[i].item == Show(q[i].item)
  {
    if q != [] {
      LabelledPriorities(q[1..]);
    }
  }

  /** Enqueuing a tree and then writing the queue as text is the same as
      enqueuing the tree's text onto the written queue. */
  lemma LabelledEnqueued(q: seq<Entry<Tree>>, e: Entry<Tree>)
    ensures Labelled(Enqueued(q, e)) == Enqueued(Labelled(q), Entry(Show(e.item), e.priority))
  {
    LabelledPriorities(q);
    SlotByPriorities(q, Labelled(q), e.priority);
    var k := Slot(q, e.priority);
    assert q == q[..k] + q[k..];
    LabelledConcat(q[..k], q[k..]);
    LabelledConcat(q[..k], [e]);
    LabelledConcat(q[..k] + [e], q[k..]);
    assert Labelled([e]) == [Entry(Show(e.item), e.priority)];
  }

  lemma {:induction false} LabelledEnqueueAll(q: seq<Entry<Tree>>, es: seq<Entry<Tree>>)
    ensures Labelled(EnqueueAll(q, es)) == EnqueueAll(Labelled(q), Labelled(es))
  {
    if es != [] {
      var n := |es| - 1;
      LabelledEnqueueAll(q, es[..n]);
      assert es == es[..n] + [es[n]];
      LabelledConcat(es[..n], [es[n]]);
      assert Labelled(es)[..n] == Labelled(es[..n]);
      LabelledEnqueued(EnqueueAll(q, es[..n]), es[n]);
    }
  }

  /** The labels `printTree` enqueues are the seeds `makeQueue` enqueues,
      written as text. */
  lemma {:induction false} LabelSeedsAreLabelled(h: seq<int>, n: nat)
    requires n <= |h| && n <= 256
    ensures LabelSeeds(h, n) == Labelled(Seeds(h, n))
  {
    if n > 0 {
      LabelSeedsAreLabelled(h, n - 1);
      var p := Seeds(h, n - 1);
      if h[n - 1] != 0 {
        var e := Entry(Leaf(n - 1, h[n - 1]), h[n - 1]);
        assert Seeds(h, n) == p + [e];
        LabelledConcat(p, [e]);
      } else {
        assert Seeds(h, n) == p;
      }
    }
  }

  /** Replaying the merges on texts prints the tree the merges build. */
  lemma {:induction false} PrintedMirrorsBuild(q: seq<Entry<Tree>>)
    requires Consistent(q)
    ensures Printed(Labelled(q)) == Show(Build(q))
    decreases |q|
  {
    if |q| >= 2 {
      var lq := Labelled(q);
      LabelledPriorities(q);
      var joined := Joined(q[0].item, q[1].item);
      var e := Entry(joined, joined.weight);
      var rest := q[2..];
      assert EntryConsistent(q[0]) && EntryConsistent(q[1]);
      assert Consistent(rest);
      var le := Entry(Pair(lq[0].item, lq[1].item), lq[0].priority + lq[1].priority);
      assert le == Entry(Show(e.item), e.priority);
      assert lq[2..] == Labelled(rest) by {
        assert q == q[..2] + rest;
        LabelledConcat(q[..2], rest);
      }
      LabelledEnqueued(rest, e);
      EnqueuedConsistent(rest, e);
      PrintedMirrorsBuild(Enqueued(rest, e));
      PrintedRound(lq, lq[2..], Enqueued(lq[2..], le));
      BuildRound(q);
    } else if |q| == 1 {
      LabelledPriorities(q);
    }
  }

  /** The text `printTree` returns is the one-line form of the tree
      `makeQueue` and `buildTree` build from the same counters. */
  lemma PrintTreeShowsBuiltTree(h: seq<int>)
    requires |h| == 256
    ensures Printed(LabelQueue(h)) == Show(Build(SeededQueue(h)))
  {
    LabelSeedsAreLabelled(h, |h|);
    LabelledEnqueueAll([], Seeds(h, |h|));
    assert Labelled([]) == [];
    SeededQueueShape(h);
    PrintedMirrorsBuild(SeededQueue(h));
  }

  /** `printTree`: enqueue the decimal text of every byte value with a
      non-zero count, then merge texts as `buildTree` merges trees. */
  method PrintTree(counts: array<int>) returns (tree: string)
    requires counts.Length >= 256
    ensures tree == Printed(LabelQueue(counts[..256]))
  {
    ghost var h := counts[..256];
    var queue := new PriorityQ<string>();
    for i := 0 to 256
      invariant queue.Valid() && fresh(queue.Repr)
      invariant queue.Contents == EnqueueAll([], LabelSeeds(h, i))
    {
      if counts[i] != 0 {
        ghost var e := Entry(NatToString(i), counts[i]);
        assert LabelSeeds(h, i + 1) == LabelSeeds(h, i) + [e];
        assert (LabelSeeds(h, i) + [e])[..|LabelSeeds(h, i)|] == LabelSeeds(h, i);
        queue.Enqueue(NatToString(i), counts[i]);
      } else {
        assert LabelSeeds(h, i + 1) == LabelSeeds(h, i);
      }
    }
    tree := MergeTexts(queue);
  }

  /** The merging half of `printTree`: dequeue two texts, enqueue "(a b)"
      with the sum of their priorities, until one text remains; a queue
      that starts empty yields `" ".substring(1)`, the empty text. */
  method MergeTexts(queue: PriorityQ<string>) returns (tree: string)
    requires queue.Valid()
    modifies queue.Repr
    ensures tree == Printed(old(queue.Contents))
  {
    tree := " ";
    ghost var q0 := queue.Contents;
    while !queue.IsEmpty()
      invariant queue.Valid() && fresh(queue.Repr - old(queue.Repr))
      invariant Printed(queue.Contents) == Printed(q0)
      invariant queue.Contents == [] ==> q0 == [] && tree == " "
      decreases |queue.Contents|
    {
      ghost var q := queue.Contents;
      var node1 := queue.Dequeue();
      if queue.IsEmpty() {
        assert q == [Entry(node1.item, node1.priority)];
        tree := node1.item;
        return;
      }
      tree := MergeRound(queue, node1.item, node1.priority, q);
    }
    tree := tree[1..];
  }

  /** One round of `printTree`'s merging loop once the head of `q` has been
      dequeued: dequeue the second text, enqueue "(a b)" with the sum of the
      two priorities and return it. The queue is one entry shorter and
      still merges to the same text. */
  method MergeRound(queue: PriorityQ<string>, first: string, firstPriority: int, ghost q: seq<Entry<string>>)
    returns (tree: string)
    requires queue.Valid() && |q| >= 2 && queue.Contents == q[1..]
    requires first == q[0].item && firstPriority == q[0].priority
    modifies queue.Repr
    ensures queue.Valid() && fresh(queue.Repr - old(queue.Repr))
    ensures tree == Pair(q[0].item, q[1].item)
    ensures queue.Contents == Enqueued(q[2..], Entry(tree, q[0].priority + q[1].priority))
    ensures Printed(queue.Contents) == Printed(q) && |queue.Contents| == |q| - 1
  {
    var node2 := queue.Dequeue();
    assert q[1..][1..] == q[2..];
    tree := Pair(first, node2.item);
    queue.Enqueue(tree, firstPriority + node2.priority);
    PrintedRound(q, q[2..], queue.Contents);
  }
}
